=== FILE: README.md ===
# notion-caldav synchronisation core, in Dafny

This project models the core of notion-caldav. The program keeps a cached list of task records and syncs it with a Notion database. It is meant to sync with a CalDAV calendar as well, but that part is not implemented. The model covers three parts:

- **Date-range mapping** (`date_mapping`). It converts between a task's local `(start, due)` pair and Notion's `{start, end}` date object. The direction is chosen by the type of the argument. The mapping is asymmetric: a lone Notion date becomes a *due* date, and a local pair with only a start is sent out as a lone date.
- **The task record and its transitions.** This covers `Task.__init__`, `update_with_notion` and `from_notion`, the outgoing `notion_properties`, the request `to_notion` sends and its effect on the task once Notion answers, the filter shaping of `query_notion_db`, and the in-memory effect of `load_cache` and `dump_cache`. Notion's `last_edited_time` stamps are parsed by a partial parser for the fixed `%Y-%m-%dT%H:%M:%S.%fZ` shape. Each stamp becomes an integer: microseconds since the Unix epoch.
- **The reconciliation pass** of `test.py`:
  1. load the cache;
  2. absorb the queried pages, where the last writer wins only on a strictly newer stamp;
  3. classify each task as push-and-keep, stale or keep;
  4. apply Notion's answers to the pushed tasks;
  5. dump every task that is not stale.

Modules follow the source. `Wrappers` holds `Option`, `Result` and the errors. `Seqs` holds `next(...)` and subsequences. `Stamp` holds the stamp parser and the calendar. `Dates` holds `date_mapping`, `Tasks` the `Task` record, `Notion` the query filter, `Cache` load and dump, and `Reconcile` the pass in `test.py`.

Every Python exception in the core aborts the pass, so each one becomes a `Failure`.

Four things become parameters:
- the configured date property and database id (`Env`);
- the clock reading (`Env.now`);
- `fromiso`'s calendar parsing (`Env.norm`, a function that returns `None` when both `date.fromisoformat` and `datetime.fromisoformat` raise);
- Notion's answer to the i-th push (`Responder`).

Two consequences of the code are worth stating:
- A stale task always has source `'notion'`. A cached task with no page and a non-Notion source meets the push condition (test.py:44-53), so it is pushed, never dropped (`Reconcile.Decide`, `Reconcile.SyncStale`).
- Absorbing a newer page sets `source = 'notion'` as well as the name, dates, id and timestamp (notion_caldav.py:66).

## Model

| member | source | states |
|---|---|---|
| Seqs.FirstIndex | test.py:21 | `next(...)` picks the first element that satisfies the test, or `None` exactly when no element does |
| Stamp.ToMicros | notion_caldav.py:199-200 | the integer timestamp's whole days are the date's distance from 1970-01-01, and its remainder is the time of day in microseconds |
| Stamp.UtcFromNotionStamp | notion_caldav.py:192-196 | a stamp parses iff it has the fixed `YYYY-MM-DDTHH:MM:SS.<1-6 digits>Z` shape and its fields form a valid date and time; each field of the result is the number its digits spell, the fraction right-padded to microseconds |
| Stamp.ParseFormat | notion_caldav.py:192-196 | for every valid instant, fraction width from 1 to 6 digits that writes it exactly (Notion's milliseconds included), and either case of `T` and `Z`, parsing the written stamp gives the instant back |
| Stamp.Fraction | notion_caldav.py:193-195 | writing fewer than six fraction digits keeps the leading ones, which `%f` pads back to the microsecond field when the dropped digits are zeros |
| Stamp.ParseMillisecondStamp | notion_caldav.py:192-196 | Notion's millisecond stamp `2020-03-17T19:10:04.968Z` parses to 19:10:04.968000 on 17 March 2020 |
| Stamp.NormalizeNotionTimestamp | notion_caldav.py:199-200 | normalising succeeds iff the stamp parses, and then gives the parsed instant's microsecond count; otherwise it raises a timestamp-format error naming the text |
| Stamp.NormalizeFormat | notion_caldav.py:199-200 | a stamp written in any accepted width and case normalises to the instant's microsecond count |
| Stamp.ToMicrosOrder | test.py:26 | the integer timestamp is strictly smaller iff the instant is chronologically earlier, and equal iff the instants are equal, so `>` on integers is the source's `>` on datetimes |
| Dates.FromIso | notion_caldav.py:151-158 | `None` stays `None`; text comes back normalised, or raises a malformed-date error when neither ISO parser accepts it |
| Dates.NormalisedPair | notion_caldav.py:185 | succeeds iff both ends normalise, giving the normalised pair; a failing start's error is reported, and otherwise the failing due's |
| Dates.DateMapping | notion_caldav.py:150-189 | `(None, None)` maps to `None` and back; a due-only pair is sent as `{start: due, end: None}`, and a pair with a start as `{start, end: due}`; an incoming dict with a falsy end gives `(None, Norm(start))`, otherwise `(Norm(start), Norm(end))`; any other type raises |
| Dates.OutgoingIsJson | notion_caldav.py:161-175 | the tuple direction never fails and always yields a dict or `None`, never a tuple |
| Dates.RoundTripNone | notion_caldav.py:161-187 | no dates survive the round trip through Notion's form exactly |
| Dates.RoundTripDueOnly | notion_caldav.py:161-185 | `(None, D)` comes back as `(None, Norm(D))`, or raises when `D` does not normalise |
| Dates.RoundTripBoth | notion_caldav.py:161-185 | `(S, D)` with a non-empty `D` comes back as `(Norm(S), Norm(D))` |
| Dates.RoundTripStartOnly | notion_caldav.py:161-185 | `(S, None)` and `(S, '')` do not round-trip: they come back as `(None, Norm(S))` |
| Tasks.NewTask | notion_caldav.py:32-56 | the final id equals the argument despite the reset at line 49; a given timestamp is kept, and a missing one is the clock reading; all other fields are the arguments |
| Tasks.UpdateWithNotion | notion_caldav.py:64-70 | succeeds iff the title is non-empty, the date property exists, its date maps and the stamp parses; it then sets the name, `source = 'notion'`, the page id, the parsed stamp and the mapped `(start, due)`, and leaves priority, CalDAV uid and cached flag unchanged |
| Tasks.FromNotion | notion_caldav.py:58-62 | succeeds iff the title is non-empty, the date property exists, its date maps and the stamp parses; the page then becomes a never-cached Notion task with the page's id, first title item, parsed stamp and mapped `(start, due)`, and no priority or CalDAV uid |
| Tasks.FromNotionIgnoresClock | notion_caldav.py:50-62 | the clock reading the constructor falls back to never reaches a task built from a page |
| Tasks.NotionProperties | notion_caldav.py:101-115 | the payload carries the name as the only title item and the outgoing date mapping under the configured date property |
| Tasks.PushRequestOf | notion_caldav.py:73-91 | a task with a truthy id updates that page, and any other task creates a page in the configured database; both send the task's properties |
| Tasks.AfterPush | notion_caldav.py:92-96 | after Notion answers, an existing truthy id is kept, a missing one is taken from the answer, and the timestamp becomes the answer's stamp; nothing else changes, and an unparseable stamp raises |
| Tasks.PushLinks | notion_caldav.py:74-96 | a pushed task is linked afterwards, and an id it had is never cleared or replaced |
| Tasks.PullAfterPush | notion_caldav.py:64-115 | absorbing the page that echoes a task's own properties gives back the task's name, and its dates as the date round trip returns them |
| Notion.QueryFilter | notion_caldav.py:129-139 | a dict filter is sent as is and no filter stays none; any other value becomes a `checkbox equals true` filter on the property it names |
| Notion.QueryFilterIdempotent | notion_caldav.py:131-139 | shaping an already shaped filter changes nothing, and naming a checkbox is the same as configuring its dict |
| Cache.ToEntry | notion_caldav.py:218 | a task's stored object holds its timestamp, and rebuilding a task from it gives the task back whatever the clock says |
| Cache.FromEntry | notion_caldav.py:208 | `Task(**obj)` takes every stored attribute, and the clock reading only when the timestamp is missing |
| Cache.EntryRoundTrip | notion_caldav.py:208-218 | a stored object with its timestamp is written back unchanged; one without gets the clock reading filled in |
| Cache.LoadCache | notion_caldav.py:203-212 | an absent file gives no tasks; otherwise there is one task per stored object, in order, with the stored fields, and a missing timestamp is filled from the clock |
| Cache.MarkCached | notion_caldav.py:216-217 | every task is marked cached; count, order and all other fields are kept |
| Cache.DumpCache | notion_caldav.py:215-221 | the written list holds one cached object per task, in order |
| Cache.LoadDump | notion_caldav.py:203-221 | loading what was dumped gives the dumped tasks back, all marked cached |
| Cache.DumpLoad | notion_caldav.py:203-221 | dumping what was loaded writes the same objects back, up to the cached flag and a filled-in timestamp |
| Cache.MarkCachedIdempotent | notion_caldav.py:215-218 | dumping twice is the same as dumping once |
| Reconcile.MatchingTask | test.py:21 | finds the first task linked to the page id, or none exactly when no task is linked |
| Reconcile.AbsorbPage | test.py:21-28 | an unknown page appends exactly one task built from it; a known page overwrites its first linked task only when the page stamp is strictly later; an equal or older stamp leaves the list unchanged |
| Reconcile.Absorb | test.py:20-28 | with no pages the list is unchanged; a successful loop never shortens the list and adds at most one task per page |
| Reconcile.AbsorbPageGrows | test.py:21-28 | one absorb step keeps every task's position and link, and leaves the page linked from the list |
| Reconcile.AbsorbGrows | test.py:20-28 | absorbing never removes, moves or relinks a task; it leaves unlinked tasks untouched, turns every task it changes into a Notion task, and only appends never-cached Notion tasks |
| Reconcile.AbsorbCoversPages | test.py:20-28 | after absorbing, every page is linked from some task |
| Reconcile.AbsorbParsesStamps | test.py:20-28 | a successful absorb has parsed every page's stamp: a malformed one aborts the loop |
| Reconcile.AbsorbIntoEmpty | test.py:20-25 | from an empty cache, one page is absorbed iff `from_notion` accepts it, and then the list is exactly `[Task.from_notion(page)]`, a never-cached Notion task linked to the page |
| Reconcile.AbsorbPageWellFormed | test.py:21-28 | a page with a title, the date property, a date that maps and a stamp that parses is always absorbed, whether it is new, newer or older |
| Reconcile.AbsorbWellFormed | test.py:20-28 | the loop succeeds on any task list when every page is well formed in that sense |
| Reconcile.AbsorbKeepsLinks | test.py:20-28 | absorbing keeps every task's link at its position |
| Reconcile.MatchingPage | test.py:35-38 | finds the first page linked to the task, or none exactly when the task is unlinked |
| Reconcile.AttributeTruth | notion_caldav.py:44-56 | reading an attribute `Task.__init__` sets succeeds with its truth value in a Python condition (`cached` gives the flag, `notion_id` and `source` whether they are non-empty); reading a name `Task` does not set, such as `from_cache`, raises AttributeError naming it |
| Reconcile.DecideReading | test.py:44-52 | the flag is read first: a name `Task` does not set raises AttributeError naming it, whatever the pages; for any attribute `Task` sets, the only failure is a stamp error, and a false value keeps the task |
| Reconcile.Decide | test.py:44-67 | a task is pushed iff it is cached, not from Notion, and either unlinked or strictly newer than its page; it is stale iff it is cached, unlinked and from Notion; a never-cached task is kept; it fails iff it is cached, not from Notion and its linked page's stamp does not parse, and then the error names that stamp |
| Reconcile.ClassifyReading | test.py:33-67 | the loop gives one bucket per task, in order, each being that task's decision; it succeeds iff every decision does |
| Reconcile.ClassifyAsWrittenFails | test.py:44-45 | as written, the loop raises AttributeError for every non-empty task list |
| Reconcile.ClassifySucceeds | test.py:44-53 | with `cached` read, the loop succeeds whenever every page stamp parses, and agrees with `Decide` |
| Reconcile.ToNotion | test.py:54 | a task is in `tasks_to_notion` iff some position holding it was classified as a push, and the list has one entry per pushed position |
| Reconcile.ToCache | test.py:54-67 | a task is in `tasks_to_cache` iff some position holding it was not classified as stale, and the list has one entry per pushed or kept position |
| Reconcile.StaleTasks | test.py:62-65 | a task is dropped iff some position holding it was classified as stale, one entry per stale position |
| Reconcile.Partition | test.py:33-67 | `tasks_to_cache` and the stale list split the task list, and both keep its order; `tasks_to_notion` and the kept tasks split `tasks_to_cache`; `tasks_to_notion` is a subsequence of `tasks_to_cache` and of the task list |
| Reconcile.ClassifiedLists | test.py:44-67 | a never-cached task is always in `tasks_to_cache`; every pushed task is also there; every stale task is a cached Notion task with no page |
| Reconcile.LinkedTaskRetained | test.py:44-67 | a task that some page links to always reaches `tasks_to_cache` |
| Reconcile.ApplyPushes | test.py:70 | at most one task per classified task survives; the pushes succeed iff every one of them is answered with a stamp that parses, and only a push that raised or an answer with a bad stamp aborts the pass |
| Reconcile.ApplyPushesKeepsCacheList | test.py:70-73 | the dumped list is `tasks_to_cache` position by position: a kept task is unchanged, and the n-th pushed task (counting from 0 in list order) is `to_notion`'s update with the n-th answer, so it changes only in timestamp and link and keeps a truthy id |
| Reconcile.Sync | test.py:14-73 | every entry a pass writes is marked cached, and there are no more requests than written entries, since every pushed task is also cached |
| Reconcile.SyncEmpty | test.py:14-73 | with no cache file and no pages, a pass sends, drops and writes nothing |
| Reconcile.SyncSucceeds | test.py:14-73 | a pass over well-formed pages succeeds whenever the first (loaded tasks + pages) push answers arrive with stamps that parse |
| Reconcile.PushNumbering | test.py:54-70 | the retained task that reads answer `n` is the `n`-th entry of `tasks_to_notion` |
| Reconcile.SyncRequests | test.py:54-70 | a pass sends one request per pushed position, in list order, the `n`-th built from the `n`-th pushed task, which is the task that reads the `n`-th answer |
| Reconcile.SyncParsesStamps | test.py:17-28 | a pass that succeeds has parsed every page's stamp |
| Reconcile.SyncAccounts | test.py:14-73 | every loaded task keeps its link, priority, CalDAV uid and cached flag through absorbing, and is then either dropped as stale or written to an entry holding its name, source, dates, priority and CalDAV uid and any link it had; every written entry is marked cached |
| Reconcile.SyncStale | test.py:44-65 | every task dropped as stale is a cached Notion task that no page links to |
| Reconcile.SyncKeepsPages | test.py:17-73 | every page with a non-empty id is linked from some written cache entry |

## Left out

- Configuration loading and `sys.exit` at import (notion_caldav.py:11-28) are file and YAML I/O. The date property and database id are `Env` fields, and FILTER is a `Notion.Filter` value.
- The Notion client is a foreign library and is left out. This covers `AsyncClient`, `get_notion_client`, and the `pages.update`, `pages.create` and `databases.query` calls. Only the returned `{id, last_edited_time}` is modelled, as `Tasks.Response`. Pages are given to the pass as a list.
- `asyncio.gather` and `aclose` (test.py:70-71): the model applies the pushes in list order and, on success, the result is the same as the source's. On failure it differs. `gather` has already started every push, so pushes answered before the failure have changed Notion. `asyncio.run` (test.py:75) then cancels the pushes still pending. The cache is not written (test.py:73 is not reached), so a page created by a completed push has no cached task. The model's `Failure` carries neither the requests sent nor these side effects. When several pushes fail, the model reports the first one in list order, while `gather` reports the first that raised in time.
- JSON file reading and writing, logging setup and `main` are I/O (notion_caldav.py:203-246; test.py:6-11) and are left out. `__repr__` (notion_caldav.py:117-118) only formats text for the log and is left out.
- `datetime.now(pytz.utc)` (notion_caldav.py:53) is nondeterministic, so the clock reading is `Env.now`. The source reads the clock once per task it constructs; the model uses one reading for the whole pass. Nothing in the model depends on the difference.
- Python's calendar parsing inside `fromiso` is library behaviour. It is the parameter `Env.norm`.
- The commented-out CalDAV branch and the remote delete (test.py:57-65) are not implemented in the source. Stale tasks are returned as `Reconcile.Outcome.stale`.
- Timestamps are integer microseconds rather than ISO-8601 text. So a malformed cached timestamp, and the TypeError from comparing a naive datetime with an aware one, cannot arise in the model.
- Stamp.UtcFromNotionStamp: accepts only zero-padded two-digit month, day, hour, minute and second fields in ASCII digits. The regular expressions of `_strptime` also accept single-digit fields, a space-padded day and non-ASCII decimal digits. The Notion API never sends those.
- Tasks.UpdateWithNotion: the page's title items are reduced to their text contents. A title item without a `text` object (a mention) raises AttributeError in the source and is not modelled. Properties other than the title and the date property are not read and are not modelled.
- Tasks.UpdateWithNotion: the title property name `'Name'` is fixed in the source (notion_caldav.py:65, 103). A page with no `'Name'` property raises AttributeError. `Page.title` always exists, so the model cannot express that page.
- Python's evaluation order mutates part of a task before a later read raises. The model does not keep that partial state, because the exception aborts the pass before anything is dumped.
- Cache.LoadCache: a stored object with an unknown key, or without `name` or `source`, makes `Task(**obj)` raise TypeError. Every other key has a default (notion_caldav.py:36-42). The model's `Entry` always has every field, and a missing timestamp is `None`.
- Dates.DateMapping: tuples whose length is not 2 are not modelled. The only caller passes `(start, due)`.
- Notion.QueryFilter: a non-dict YAML filter value (number, boolean, list) is modelled by its text.
- Task priority is an opaque optional integer, because the source never interprets it.

## Findings

| source | as written | input that shows it | evidently intended | confidence | as-written member | corrected member |
|---|---|---|---|---|---|---|
| test.py:45 | the classification reads `task.from_cache`, here and at line 62, but `Task` defines only `cached` (notion_caldav.py:56), so the read raises AttributeError | any non-empty task list, for example the single task absorbed from one page into an empty cache | read `task.cached` | high; not executed | Reconcile.ClassifyAsWrittenFails | Reconcile.ClassifySucceeds |

=== FILE: cache.dfy ===
/** The in-memory effect of `load_cache` and `dump_cache`
    (notion_caldav.py:203-221). The file is an ordered JSON list holding each
    task's attribute dict; reading and writing it is I/O and is not modelled:
    an absent file is `None` and a present one is its list of entries. */
module Cache {
  import opened Wrappers
  import opened Tasks

  /** One cached object: a task's `__dict__`. A timestamp may be missing or
      empty in a hand-edited file, which `Task(**obj)` treats as absent. */
  datatype Entry = Entry(
    name: string,
    source: string,
    start: Option<string>,
    due: Option<string>,
    priority: Option<int>,
    timestamp: Option<int>,
    notionId: Option<string>,
    caldavUid: Option<string>,
    cached: bool)

  /** `t.__dict__`: every attribute is stored, so the task can be rebuilt
      from it whatever the clock says. */
  function ToEntry(t: Task): (e: Entry)
    ensures e.timestamp == Some(t.timestamp)
    ensures forall now :: FromEntry(e, now) == t
  {
    Entry(t.name, t.source, t.start, t.due, t.priority, Some(t.timestamp),
          t.notionId, t.caldavUid, t.cached)
  }

  /** `Task(**obj)`: the stored attributes become the task's, and a missing
      timestamp is the clock reading. */
  function FromEntry(e: Entry, now: int): (t: Task)
    ensures e.timestamp.None? ==> t.timestamp == now
    ensures e.timestamp.Some? ==> t.timestamp == e.timestamp.value
    ensures t.(timestamp := 0) == Task(e.name, e.source, e.start, e.due, e.priority, 0,
                                       e.notionId, e.caldavUid, e.cached)
  {
    NewTask(e.name, e.source, e.start, e.due, e.priority, e.timestamp,
            e.notionId, e.caldavUid, e.cached, now)
  }

  /** An entry that carries its timestamp is written back as it was read. */
  lemma EntryRoundTrip(e: Entry, now: int)
    ensures e.timestamp.Some? ==> ToEntry(FromEntry(e, now)) == e
    ensures e.timestamp.None? ==> ToEntry(FromEntry(e, now)) == e.(timestamp := Some(now))
  {
  }

  /** `load_cache` (lines 203-212): an absent file is an empty list, and each
      stored object becomes one task, in file order. */
  function LoadCache(file: Option<seq<Entry>>, now: int): (r: seq<Task>)
    ensures file.None? ==> r == []
    ensures file.Some? ==> |r| == |file.value|
    ensures file.Some? ==> forall i :: 0 <= i < |r| ==>
      && r[i].name == file.value[i].name
      && r[i].source == file.value[i].source
      && r[i].start == file.value[i].start
      && r[i].due == file.value[i].due
      && r[i].priority == file.value[i].priority
      && r[i].notionId == file.value[i].notionId
      && r[i].caldavUid == file.value[i].caldavUid
      && r[i].cached == file.value[i].cached
      && r[i].timestamp == (if file.value[i].timestamp.Some? then file.value[i].timestamp.value else now)
  {
    match file
    case None => []
    case Some(entries) => seq(|entries|, i requires 0 <= i < |entries| => FromEntry(entries[i], now))
  }

  /** The loop of `dump_cache` (lines 216-217): every task is marked cached,
      in place, so order and count are kept. */
  function MarkCached(tasks: seq<Task>): (r: seq<Task>)
    ensures |r| == |tasks|
    ensures forall i :: 0 <= i < |r| ==> r[i].cached && r[i].(cached := tasks[i].cached) == tasks[i]
  {
    if |tasks| == 0 then []
    else [tasks[0].(cached := true)] + MarkCached(tasks[1..])
  }

  /** `dump_cache` (lines 215-221): the list written to the file. */
  function DumpCache(tasks: seq<Task>): (r: seq<Entry>)
    ensures |r| == |tasks|
    ensures forall i :: 0 <= i < |r| ==> r[i].cached && r[i] == ToEntry(tasks[i]).(cached := true)
  {
    var marked := MarkCached(tasks);
    seq(|marked|, i requires 0 <= i < |marked| => ToEntry(marked[i]))
  }

  /** Loading what was dumped gives back the dumped tasks, all marked cached. */
  lemma LoadDump(tasks: seq<Task>, now: int)
    ensures LoadCache(Some(DumpCache(tasks)), now) == MarkCached(tasks)
  {
    var loaded := LoadCache(Some(DumpCache(tasks)), now);
    var marked := MarkCached(tasks);
    assert forall i :: 0 <= i < |loaded| ==> loaded[i] == marked[i];
  }

  /** Dumping what was loaded writes the same objects back, up to the cached
      flag becoming true and a missing timestamp being filled from the clock. */
  lemma DumpLoad(entries: seq<Entry>, now: int)
    ensures var written := DumpCache(LoadCache(Some(entries), now));
      && |written| == |entries|
      && forall i :: 0 <= i < |written| ==>
           written[i] == entries[i].(cached := true,
                                     timestamp := Some(if entries[i].timestamp.Some? then entries[i].timestamp.value else now))
  {
  }

  /** Dumping twice writes the same file as dumping once. */
  lemma MarkCachedIdempotent(tasks: seq<Task>)
    ensures MarkCached(MarkCached(tasks)) == MarkCached(tasks)
  {
    var once := MarkCached(tasks);
    var twice := MarkCached(once);
    assert forall i :: 0 <= i < |twice| ==> twice[i] == once[i];
  }
}

=== FILE: dates.dfy ===
/** `date_mapping` (notion_caldav.py:150-189): the conversion between a task's
    local `(start, due)` pair and Notion's `{start, end}` date object. The
    direction is picked by the dynamic type of the argument, and the mapping
    is deliberately asymmetric: a lone Notion date becomes a *due* date,
    while a local pair with only a start is sent out as a lone date. */
module Dates {
  import opened Wrappers

  /** The Python values `date_mapping` can be handed. */
  datatype DateValue =
    | Pair(first: Option<string>, second: Option<string>)  // a 2-tuple (start, due)
    | Range(start: Option<string>, end: Option<string>)    // a dict; a missing key reads as None
    | Null                                                 // None
    | Unexpected                                           // any other type

  /** A date value that can arrive in a decoded JSON page: JSON has no tuples. */
  type JsonDate = v: DateValue | !v.Pair? witness Null

  /** `fromiso`'s parse-and-reformat step: `date.fromisoformat` or else
      `datetime.fromisoformat`, then `isoformat()`. Python's calendar parsing
      is not modelled, so the step is a parameter; `None` means both parsers
      raise. */
  type Normaliser = string -> Option<string>

  /** `fromiso` (lines 151-158): None stays None, text is normalised, and
      text neither parser accepts raises. */
  function FromIso(norm: Normaliser, v: Option<string>): (r: Result<Option<string>>)
    ensures v.None? ==> r == Success(None)
    ensures v.Some? && r.Success? ==> r.value.Some? && norm(v.value) == r.value
    ensures v.Some? && r.Failure? ==> norm(v.value).None? && r.error == MalformedDate(v.value)
  {
    match v
    case None => Success(None)
    case Some(text) =>
      match norm(text)
      case None => Failure(MalformedDate(text))
      case Some(iso) => Success(Some(iso))
  }

  /** Both ends of a remote range normalised, start first as Python evaluates
      the tuple display `(fromiso(start), fromiso(due))`. */
  function NormalisedPair(norm: Normaliser, start: Option<string>, due: Option<string>): (r: Result<DateValue>)
    ensures r.Success? <==> FromIso(norm, start).Success? && FromIso(norm, due).Success?
    ensures r.Success? ==> r.value == Pair(FromIso(norm, start).value, FromIso(norm, due).value)
    ensures r.Failure? && FromIso(norm, start).Failure? ==> r.error == FromIso(norm, start).error
    ensures r.Failure? && FromIso(norm, start).Success? ==> r.error == FromIso(norm, due).error
  {
    var s :- FromIso(norm, start);
    var d :- FromIso(norm, due);
    Success(Pair(s, d))
  }

  /** `not n_end`: None and the empty string are falsy. */
  predicate Falsy(o: Option<string>) {
    !Truthy(o)
  }

  function DateMapping(norm: Normaliser, value: DateValue): (r: Result<DateValue>)
    // a tuple is sent out: (None, None) is no date, otherwise a {start, end} dict
    ensures value.Pair? ==> r.Success? && (r.value.Null? <==> value == Pair(None, None))
    ensures value.Pair? && value.first.None? && value.second.Some?
            ==> r == Success(Range(value.second, None))
    ensures value.Pair? && value.first.Some? ==> r == Success(Range(value.first, value.second))
    // a dict comes in: a lone date is a due date
    ensures value.Range? && Falsy(value.end) ==> r == NormalisedPair(norm, None, value.start)
    ensures value.Range? && Truthy(value.end) ==> r == NormalisedPair(norm, value.start, value.end)
    ensures value.Range? && r.Success? ==> r.value.Pair?
    // None comes in as no dates at all; anything else raises
    ensures value.Null? ==> r == Success(Pair(None, None))
    ensures value.Unexpected? <==> r == Failure(UnexpectedDateType)
  {
    match value
    case Pair(first, second) =>
      if value == Pair(None, None) then Success(Null)
      else
        var start := if first.None? then second else first;
        var end := if first.None? then None else second;
        Success(Range(start, end))
    case Range(nStart, nEnd) =>
      var start := if Falsy(nEnd) then None else nStart;
      var due := if Falsy(nEnd) then nStart else nEnd;
      NormalisedPair(norm, start, due)
    case Null => Success(Pair(None, None))
    case Unexpected => Failure(UnexpectedDateType)
  }

  /** What the outgoing direction produces is always a value the incoming
      direction accepts: `None` or a dict, never a tuple. */
  lemma OutgoingIsJson(norm: Normaliser, start: Option<string>, due: Option<string>)
    ensures DateMapping(norm, Pair(start, due)).Success?
    ensures DateMapping(norm, Pair(start, due)).value.Range?
            || DateMapping(norm, Pair(start, due)).value.Null?
  {
  }

  // ---------------------------------------------------------------------
  // Round trips through Notion's dict form

  /** Out and back again through the two directions. */
  function RoundTrip(norm: Normaliser, start: Option<string>, due: Option<string>): Result<DateValue>
  {
    var out := DateMapping(norm, Pair(start, due)).value;
    DateMapping(norm, out)
  }

  /** No dates at all survive the round trip exactly. */
  lemma RoundTripNone(norm: Normaliser)
    ensures RoundTrip(norm, None, None) == Success(Pair(None, None))
  {
  }

  /** A lone due date comes back as the normalised due date. */
  lemma RoundTripDueOnly(norm: Normaliser, due: string)
    ensures norm(due).Some? ==> RoundTrip(norm, None, Some(due)) == Success(Pair(None, norm(due)))
    ensures norm(due).None? ==> RoundTrip(norm, None, Some(due)) == Failure(MalformedDate(due))
  {
  }

  /** A start and a non-empty due both come back, each normalised. */
  lemma RoundTripBoth(norm: Normaliser, start: string, due: string)
    requires due != ""
    ensures RoundTrip(norm, Some(start), Some(due)) == NormalisedPair(norm, Some(start), Some(due))
    ensures norm(start).Some? && norm(due).Some?
            ==> RoundTrip(norm, Some(start), Some(due)) == Success(Pair(norm(start), norm(due)))
  {
  }

  /** The asymmetry: a lone start date does NOT survive the round trip; it
      comes back as the due date. An empty due string is falsy and has the
      same effect. */
  lemma RoundTripStartOnly(norm: Normaliser, start: string, due: Option<string>)
    requires Falsy(due)
    ensures RoundTrip(norm, Some(start), due) == NormalisedPair(norm, None, Some(start))
    ensures norm(start).Some?
            ==> RoundTrip(norm, Some(start), due) == Success(Pair(None, norm(start)))
  {
  }
}

=== FILE: notion.dfy ===
/** The filter shaping of `query_notion_db` (notion_caldav.py:129-147). The
    configured FILTER is passed through when it is already a dict or None;
    any other value names a checkbox property that must be ticked. The query
    call itself belongs to the Notion client. */
module Notion {
  import opened Wrappers

  /** A dict the query sends as its filter. Only the checkbox shape is
      spelled out; any other dict is carried as opaque fields. */
  datatype FilterObject =
    | Checkbox(property: string, equals: bool)   // {'property': p, 'checkbox': {'equals': e}}
    | Fields(fields: map<string, string>)

  /** The configured FILTER value: a dict, None, or any other scalar (kept
      as its text). */
  datatype Filter = ObjectFilter(obj: FilterObject) | NoFilter | ScalarFilter(value: string)

  /** The filter argument of the query; `None` sends no filter. */
  function QueryFilter(f: Filter): (r: Option<FilterObject>)
    ensures r.None? <==> f.NoFilter?
    ensures f.ObjectFilter? ==> r == Some(f.obj)
    ensures f.ScalarFilter? ==> r == Some(Checkbox(f.value, true))
  {
    match f
    case ObjectFilter(obj) => Some(obj)
    case NoFilter => None
    case ScalarFilter(name) => Some(Checkbox(name, true))
  }

  /** The shaped filter written back as a configured value. */
  function AsConfigured(q: Option<FilterObject>): Filter {
    match q
    case None => NoFilter
    case Some(obj) => ObjectFilter(obj)
  }

  /** Shaping is idempotent: a shaped filter, configured again, is sent as is;
      and naming a checkbox is the same as configuring its dict. */
  lemma QueryFilterIdempotent(f: Filter)
    ensures QueryFilter(AsConfigured(QueryFilter(f))) == QueryFilter(f)
    ensures f.ScalarFilter? ==> QueryFilter(f) == QueryFilter(ObjectFilter(Checkbox(f.value, true)))
  {
  }
}

=== FILE: reconcile.dfy ===
/** The reconciliation pass of test.py (lines 14-73): load the cache, absorb
    the pages Notion returned (last writer wins on strictly newer stamps),
    classify every task as push-and-keep, stale or keep, apply Notion's
    answers to the pushed tasks and dump the retained tasks to the cache. */
module Reconcile {
  import opened Wrappers
  import opened Seqs
  import opened Stamp
  import opened Tasks
  import opened Cache

  // ---------------------------------------------------------------------
  // Absorb (lines 20-28)

  /** The first task linked to the page id, as `next(...)` at line 21 finds it. */
  function MatchingTask(tasks: seq<Task>, id: string): (r: Option<nat>)
    ensures r.Some? ==> r.value < |tasks| && tasks[r.value].notionId == Some(id)
    ensures r.Some? ==> forall j :: 0 <= j < r.value ==> tasks[j].notionId != Some(id)
    ensures r.None? <==> forall j :: 0 <= j < |tasks| ==> tasks[j].notionId != Some(id)
  {
    FirstIndex(tasks, (t: Task) => t.notionId == Some(id))
  }

  /** One iteration of the absorb loop. An unknown page becomes a new task at
      the end; a known one overwrites its task only when the page's stamp is
      strictly later than the task's timestamp. */
  function AbsorbPage(tasks: seq<Task>, page: Page, env: Env): (r: Result<seq<Task>>)
    ensures r.Success? ==> NormalizeNotionTimestamp(page.lastEdited).Success?
    ensures MatchingTask(tasks, page.id).None? ==>
      && (r.Success? <==> FromNotion(page, env).Success?)
      && (r.Success? ==> r.value == tasks + [FromNotion(page, env).value])
    ensures MatchingTask(tasks, page.id).Some? && NormalizeNotionTimestamp(page.lastEdited).Success? ==>
      var i := MatchingTask(tasks, page.id).value;
      if NormalizeNotionTimestamp(page.lastEdited).value > tasks[i].timestamp
      then (r.Success? <==> UpdateWithNotion(tasks[i], page, env).Success?)
           && (r.Success? ==> r.value == tasks[i := UpdateWithNotion(tasks[i], page, env).value])
      else r == Success(tasks)
  {
    var linked := MatchingTask(tasks, page.id);
    if linked.None? then
      var created :- FromNotion(page, env);
      Success(tasks + [created])
    else
      var i := linked.value;
      var stamp :- NormalizeNotionTimestamp(page.lastEdited);
      if stamp > tasks[i].timestamp then
        var updated :- UpdateWithNotion(tasks[i], page, env);
        Success(tasks[i := updated])
      else
        Success(tasks)
  }

  /** The absorb loop over all pages, in query order: each page adds at most
      one task and none is removed. */
  function Absorb(tasks: seq<Task>, pages: seq<Page>, env: Env): (r: Result<seq<Task>>)
    ensures |pages| == 0 ==> r == Success(tasks)
    ensures r.Success? ==> |tasks| <= |r.value| <= |tasks| + |pages|
    decreases |pages|
  {
    if |pages| == 0 then Success(tasks)
    else
      var next :- AbsorbPage(tasks, pages[0], env);
      Absorb(next, pages[1..], env)
  }

  /** A successful absorb absorbed its first page and then the rest. */
  lemma AbsorbStep(tasks: seq<Task>, pages: seq<Page>, env: Env)
    requires |pages| > 0 && Absorb(tasks, pages, env).Success?
    ensures AbsorbPage(tasks, pages[0], env).Success?
    ensures Absorb(tasks, pages, env) == Absorb(AbsorbPage(tasks, pages[0], env).value, pages[1..], env)
  {
  }

  /** What absorbing never changes about a task: its link, its priority, its
      CalDAV uid and its cached flag. */
  predicate SameSlot(before: Task, after: Task) {
    && after.notionId == before.notionId
    && after.priority == before.priority
    && after.caldavUid == before.caldavUid
    && after.cached == before.cached
  }

  /** `after` is `before` with pages absorbed: no task is removed or moved,
      tasks no page links to are untouched, a task that changed is now a
      Notion task, and every added task is a fresh, never-cached Notion task. */
  ghost predicate Grown(before: seq<Task>, after: seq<Task>, pages: seq<Page>) {
    && |before| <= |after|
    && (forall i :: 0 <= i < |before| ==> SameSlot(before[i], after[i]))
    && (forall i :: 0 <= i < |before| && Unlinked(before[i], pages) ==> after[i] == before[i])
    && (forall i :: 0 <= i < |before| ==> after[i] == before[i] || after[i].source == NotionSource)
    && (forall i :: |before| <= i < |after| ==>
          after[i].source == NotionSource && !after[i].cached && after[i].notionId.Some?)
  }

  /** No page links to the task. */
  ghost predicate Unlinked(t: Task, pages: seq<Page>) {
    forall k :: 0 <= k < |pages| ==> t.notionId != Some(pages[k].id)
  }

  /** Some task is linked to the page id. */
  ghost predicate Represented(tasks: seq<Task>, id: string) {
    exists j :: 0 <= j < |tasks| && tasks[j].notionId == Some(id)
  }

  lemma AbsorbPageGrows(tasks: seq<Task>, page: Page, env: Env)
    requires AbsorbPage(tasks, page, env).Success?
    ensures Grown(tasks, AbsorbPage(tasks, page, env).value, [page])
    ensures Represented(AbsorbPage(tasks, page, env).value, page.id)
  {
    var r := AbsorbPage(tasks, page, env).value;
    match MatchingTask(tasks, page.id)
    case None =>
      assert r[|tasks|].notionId == Some(page.id);
    case Some(i) =>
      assert tasks[i].notionId == Some([page][0].id);
      assert !Unlinked(tasks[i], [page]);
      var stamp := NormalizeNotionTimestamp(page.lastEdited).value;
      if stamp > tasks[i].timestamp {
        assert r == tasks[i := UpdateWithNotion(tasks[i], page, env).value];
      } else {
        assert r == tasks;
      }
      assert r[i].notionId == Some(page.id);
  }

  lemma {:induction false} GrownTransitive(a: seq<Task>, b: seq<Task>, c: seq<Task>, page: Page, rest: seq<Page>)
    requires Grown(a, b, [page]) && Grown(b, c, rest)
    ensures Grown(a, c, [page] + rest)
  {
    forall i | 0 <= i < |a| && Unlinked(a[i], [page] + rest)
      ensures c[i] == a[i]
    {
      assert a[i].notionId != Some(([page] + rest)[0].id);
      assert Unlinked(a[i], [page]);
      forall k | 0 <= k < |rest|
        ensures b[i].notionId != Some(rest[k].id)
      {
        assert rest[k] == ([page] + rest)[k + 1];
      }
    }
  }

  /** Absorbing never removes, moves or relinks a task, leaves the tasks no
      page links to untouched, and only ever appends fresh Notion tasks. */
  lemma {:induction false} AbsorbGrows(tasks: seq<Task>, pages: seq<Page>, env: Env)
    ensures Absorb(tasks, pages, env).Success? ==> Grown(tasks, Absorb(tasks, pages, env).value, pages)
    decreases |pages|
  {
    if |pages| > 0 && Absorb(tasks, pages, env).Success? {
      AbsorbStep(tasks, pages, env);
      var next := AbsorbPage(tasks, pages[0], env).value;
      var r := Absorb(tasks, pages, env).value;
      assert r == Absorb(next, pages[1..], env).value;
      AbsorbPageGrows(tasks, pages[0], env);
      AbsorbGrows(next, pages[1..], env);
      assert [pages[0]] + pages[1..] == pages;
      GrownTransitive(tasks, next, r, pages[0], pages[1..]);
    }
  }

  /** Absorbing keeps every task's link at its position. */
  lemma AbsorbKeepsLinks(tasks: seq<Task>, pages: seq<Page>, env: Env)
    ensures Absorb(tasks, pages, env).Success? ==>
      && |tasks| <= |Absorb(tasks, pages, env).value|
      && forall i :: 0 <= i < |tasks| ==> Absorb(tasks, pages, env).value[i].notionId == tasks[i].notionId
  {
    AbsorbGrows(tasks, pages, env);
  }

  /** A link kept at its position is still represented. */
  lemma LinksKept(before: seq<Task>, after: seq<Task>, id: string)
    requires |before| <= |after| && Represented(before, id)
    requires forall i :: 0 <= i < |before| ==> after[i].notionId == before[i].notionId
    ensures Represented(after, id)
  {
    var j :| 0 <= j < |before| && before[j].notionId == Some(id);
    assert after[j].notionId == Some(id);
  }

  /** After absorbing, every page is linked to some task. */
  lemma {:induction false} AbsorbCoversPages(tasks: seq<Task>, pages: seq<Page>, env: Env)
    ensures Absorb(tasks, pages, env).Success? ==>
      forall k :: 0 <= k < |pages| ==> Represented(Absorb(tasks, pages, env).value, pages[k].id)
    decreases |pages|
  {
    if |pages| > 0 && Absorb(tasks, pages, env).Success? {
      AbsorbStep(tasks, pages, env);
      var next := AbsorbPage(tasks, pages[0], env).value;
      var r := Absorb(next, pages[1..], env).value;
      AbsorbCoversPages(next, pages[1..], env);
      AbsorbPageGrows(tasks, pages[0], env);
      AbsorbKeepsLinks(next, pages[1..], env);
      LinksKept(next, r, pages[0].id);
      forall k | 0 <= k < |pages|
        ensures Represented(r, pages[k].id)
      {
        if k > 0 {
          assert pages[k] == pages[1..][k - 1];
        }
      }
      assert r == Absorb(tasks, pages, env).value;
    }
  }

  /** A successful absorb accepted every page's stamp. */
  lemma {:induction false} AbsorbParsesStamps(tasks: seq<Task>, pages: seq<Page>, env: Env)
    ensures Absorb(tasks, pages, env).Success? ==>
      forall k :: 0 <= k < |pages| ==> NormalizeNotionTimestamp(pages[k].lastEdited).Success?
    decreases |pages|
  {
    if |pages| > 0 && Absorb(tasks, pages, env).Success? {
      AbsorbStep(tasks, pages, env);
      var next := AbsorbPage(tasks, pages[0], env).value;
      AbsorbParsesStamps(next, pages[1..], env);
      forall k | 1 <= k < |pages|
        ensures NormalizeNotionTimestamp(pages[k].lastEdited).Success?
      {
        assert pages[k] == pages[1..][k - 1];
      }
    }
  }

  /** Absorbing a well-formed page always succeeds. */
  lemma AbsorbPageWellFormed(tasks: seq<Task>, page: Page, env: Env)
    ensures WellFormedPage(page, env) ==> AbsorbPage(tasks, page, env).Success?
  {
  }

  /** Absorbing well-formed pages always succeeds, whatever the tasks. */
  lemma {:induction false} AbsorbWellFormed(tasks: seq<Task>, pages: seq<Page>, env: Env)
    ensures (forall k :: 0 <= k < |pages| ==> WellFormedPage(pages[k], env)) ==>
      Absorb(tasks, pages, env).Success?
    decreases |pages|
  {
    if |pages| > 0 && forall k :: 0 <= k < |pages| ==> WellFormedPage(pages[k], env) {
      AbsorbPageWellFormed(tasks, pages[0], env);
      var next := AbsorbPage(tasks, pages[0], env).value;
      forall k | 0 <= k < |pages[1..]|
        ensures WellFormedPage(pages[1..][k], env)
      {
        assert pages[1..][k] == pages[k + 1];
      }
      AbsorbWellFormed(next, pages[1..], env);
    }
  }

  /** Starting from an empty cache, one page becomes exactly one task: the
      task `from_notion` builds from it. The absorb fails exactly when
      `from_notion` does. */
  lemma AbsorbIntoEmpty(page: Page, env: Env)
    ensures Absorb([], [page], env).Success? <==> FromNotion(page, env).Success?
    ensures FromNotion(page, env).Success? ==> Absorb([], [page], env) == Success([FromNotion(page, env).value])
    ensures Absorb([], [page], env).Success? ==>
      var r := Absorb([], [page], env).value;
      && |r| == 1
      && r[0].source == NotionSource && r[0].notionId == Some(page.id) && !r[0].cached
  {
    assert [page][1..] == [];
    assert MatchingTask([], page.id).None?;
    if FromNotion(page, env).Success? {
      var created := [FromNotion(page, env).value];
      assert [] + created == created;
      assert AbsorbPage([], page, env) == Success(created);
      assert Absorb([], [page], env) == Absorb(created, [], env);
    }
  }

  // ---------------------------------------------------------------------
  // Classify (lines 33-67)

  datatype Bucket =
    | Push    // pushed to Notion and kept in the cache (lines 54-55)
    | Stale   // dropped from the cache; the remote delete is not implemented (lines 62-65)
    | Keep    // kept in the cache as is (line 67)

  /** The first page linked to the task, as `next(...)` at line 35 finds it. */
  function MatchingPage(pages: seq<Page>, t: Task): (r: Option<nat>)
    ensures r.Some? ==> r.value < |pages| && t.notionId == Some(pages[r.value].id)
    ensures r.Some? ==> forall j :: 0 <= j < r.value ==> t.notionId != Some(pages[j].id)
    ensures r.None? <==> Unlinked(t, pages)
  {
    FirstIndex(pages, (p: Page) => t.notionId == Some(p.id))
  }

  /** The attribute the classification reads for "was this task cached". */
  const CachedAttribute := "cached"

  /** The attributes `Task.__init__` sets (notion_caldav.py:44-56). */
  const TaskAttributes: set<string> :=
    {"name", "source", "start", "due", "priority", "timestamp", "notion_id", "caldav_uid", "cached"}

  /** The truth value of `task.<attr>` in a Python condition. An attribute
      `Task` sets is read with Python's truthiness (an empty text, `None` and
      `0` are false; the stored timestamp is a non-empty ISO text); any other
      name raises AttributeError. */
  function AttributeTruth(t: Task, attr: string): (r: Result<bool>)
    ensures r.Success? <==> attr in TaskAttributes
    ensures r.Failure? ==> r.error == MissingAttribute(attr)
    ensures attr == CachedAttribute ==> r == Success(t.cached)
    ensures attr == "notion_id" ==> r == Success(Truthy(t.notionId))
    ensures attr == "source" ==> r == Success(t.source != "")
  {
    if attr == "name" then Success(t.name != "")
    else if attr == "source" then Success(t.source != "")
    else if attr == "start" then Success(Truthy(t.start))
    else if attr == "due" then Success(Truthy(t.due))
    else if attr == "priority" then Success(t.priority.Some? && t.priority.value != 0)
    else if attr == "timestamp" then Success(true)
    else if attr == "notion_id" then Success(Truthy(t.notionId))
    else if attr == "caldav_uid" then Success(Truthy(t.caldavUid))
    else if attr == CachedAttribute then Success(t.cached)
    else Failure(MissingAttribute(attr))
  }

  /** The body of the classification loop, reading the flag named `attr`.
      Python's `and`/`or` short-circuit: the flag is read first, and the
      linked page's stamp is parsed only for a cached non-Notion task that
      has a linked page. */
  function DecideReading(t: Task, pages: seq<Page>, attr: string): (r: Result<Bucket>)
    // a name `Task` does not set fails before anything else is read
    ensures attr !in TaskAttributes ==> r == Failure(MissingAttribute(attr))
    // otherwise only a stamp can fail
    ensures r.Failure? && attr in TaskAttributes ==> r.error.TimestampFormat?
    // a false flag short-circuits every test: the task is kept
    ensures attr in TaskAttributes && !AttributeTruth(t, attr).value ==> r == Success(Keep)
  {
    var fromCache :- AttributeTruth(t, attr);
    var page := MatchingPage(pages, t);
    if fromCache && t.source != NotionSource && page.None? then Success(Push)
    else if fromCache && t.source != NotionSource then
      var stamp :- NormalizeNotionTimestamp(pages[page.value].lastEdited);
      if t.timestamp > stamp then Success(Push) else Success(Keep)
    else if fromCache && page.None? then Success(Stale)
    else Success(Keep)
  }

  /** The linked page exists and its stamp is strictly earlier than the task's. */
  predicate LocalIsNewer(t: Task, pages: seq<Page>) {
    var page := MatchingPage(pages, t);
    && page.Some?
    && NormalizeNotionTimestamp(pages[page.value].lastEdited).Success?
    && t.timestamp > NormalizeNotionTimestamp(pages[page.value].lastEdited).value
  }

  /** The classification of one task, reading `cached`. */
  function Decide(t: Task, pages: seq<Page>): (r: Result<Bucket>)
    // it fails only on an unparseable stamp of the linked page of a cached local task
    ensures r.Failure? ==>
      && t.cached && t.source != NotionSource && MatchingPage(pages, t).Some?
      && NormalizeNotionTimestamp(pages[MatchingPage(pages, t).value].lastEdited).Failure?
    // pushed iff cached, not from Notion, and no linked page or a strictly older one
    ensures r.Success? ==>
      (r.value == Push <==> t.cached && t.source != NotionSource && (Unlinked(t, pages) || LocalIsNewer(t, pages)))
    // stale only when cached, unlinked, and from Notion
    ensures r.Success? ==>
      (r.value == Stale <==> t.cached && Unlinked(t, pages) && t.source == NotionSource)
    // and it does fail there, naming the stamp
    ensures t.cached && t.source != NotionSource && MatchingPage(pages, t).Some?
            && NormalizeNotionTimestamp(pages[MatchingPage(pages, t).value].lastEdited).Failure?
            ==> r == Failure(TimestampFormat(pages[MatchingPage(pages, t).value].lastEdited))
    // a task never cached is kept
    ensures !t.cached ==> r == Success(Keep)
  {
    DecideReading(t, pages, CachedAttribute)
  }

  /** The classification loop over all tasks, in list order, reading the
      flag named `attr`. */
  function ClassifyReading(tasks: seq<Task>, pages: seq<Page>, attr: string): (r: Result<seq<Bucket>>)
    ensures r.Success? ==> |r.value| == |tasks|
    ensures r.Success? ==> forall i :: 0 <= i < |tasks| ==> DecideReading(tasks[i], pages, attr) == Success(r.value[i])
    ensures r.Success? <==> forall i :: 0 <= i < |tasks| ==> DecideReading(tasks[i], pages, attr).Success?
  {
    if |tasks| == 0 then Success([])
    else
      var b :- DecideReading(tasks[0], pages, attr);
      var rest :- ClassifyReading(tasks[1..], pages, attr);
      assert forall i :: 1 <= i < |tasks| ==> tasks[i] == tasks[1..][i - 1];
      Success([b] + rest)
  }

  /** The classification loop as written: it reads `task.from_cache`, an
      attribute `Task` never defines. */
  const AsWrittenAttribute := "from_cache"

  /** As written, the loop raises AttributeError on the first task, so no
      non-empty task list gets through classification. */
  lemma ClassifyAsWrittenFails(tasks: seq<Task>, pages: seq<Page>)
    requires |tasks| > 0
    ensures ClassifyReading(tasks, pages, AsWrittenAttribute) == Failure(MissingAttribute(AsWrittenAttribute))
  {
  }

  /** Corrected, the loop succeeds whenever every page's stamp parses, which
      absorbing has already established. */
  lemma ClassifySucceeds(tasks: seq<Task>, pages: seq<Page>)
    requires forall k :: 0 <= k < |pages| ==> NormalizeNotionTimestamp(pages[k].lastEdited).Success?
    ensures ClassifyReading(tasks, pages, CachedAttribute).Success?
    ensures forall i :: 0 <= i < |tasks| ==>
      ClassifyReading(tasks, pages, CachedAttribute).value[i] == Decide(tasks[i], pages).value
  {
    forall i | 0 <= i < |tasks|
      ensures DecideReading(tasks[i], pages, CachedAttribute).Success?
    {
      assert Decide(tasks[i], pages).Success?;
    }
  }

  // ---------------------------------------------------------------------
  // The lists built by the loop

  /** The tasks whose bucket is in `wanted`, in list order. */
  function Pick(tasks: seq<Task>, buckets: seq<Bucket>, wanted: set<Bucket>): (r: seq<Task>)
    requires |tasks| == |buckets|
    ensures |r| <= |tasks|
  {
    if |tasks| == 0 then []
    else (if buckets[0] in wanted then [tasks[0]] else [])
         + Pick(tasks[1..], buckets[1..], wanted)
  }

  /** `tasks_to_notion`: the tasks to push. */
  function ToNotion(tasks: seq<Task>, buckets: seq<Bucket>): (r: seq<Task>)
    requires |tasks| == |buckets|
    ensures forall j :: 0 <= j < |tasks| && buckets[j] == Push ==> tasks[j] in r
    ensures forall t :: t in r ==> exists j :: 0 <= j < |tasks| && tasks[j] == t && buckets[j] == Push
    // one entry per pushed position
    ensures |r| == multiset(buckets)[Push]
  {
    PickCount(tasks, buckets, Push);
    PickMembership(tasks, buckets, {Push});
    Pick(tasks, buckets, {Push})
  }

  /** `tasks_to_cache`: everything except the stale tasks. */
  function ToCache(tasks: seq<Task>, buckets: seq<Bucket>): (r: seq<Task>)
    requires |tasks| == |buckets|
    ensures forall j :: 0 <= j < |tasks| && buckets[j] != Stale ==> tasks[j] in r
    ensures forall t :: t in r ==> exists j :: 0 <= j < |tasks| && tasks[j] == t && buckets[j] != Stale
    ensures |r| == multiset(buckets)[Push] + multiset(buckets)[Keep]
  {
    PickCount(tasks, buckets, Push);
    PickCount(tasks, buckets, Keep);
    PickSplits(tasks, buckets, {Push}, {Keep});
    assert {Push} + {Keep} == {Push, Keep};
    var pushed, kept := Pick(tasks, buckets, {Push}), Pick(tasks, buckets, {Keep});
    assert |multiset(pushed) + multiset(kept)| == |pushed| + |kept|;
    PickMembership(tasks, buckets, {Push, Keep});
    assert forall j :: 0 <= j < |buckets| ==> (buckets[j] != Stale <==> buckets[j] in {Push, Keep});
    Pick(tasks, buckets, {Push, Keep})
  }

  /** The stale tasks, exposed for the remote delete the source leaves out. */
  function StaleTasks(tasks: seq<Task>, buckets: seq<Bucket>): (r: seq<Task>)
    requires |tasks| == |buckets|
    ensures forall j :: 0 <= j < |tasks| && buckets[j] == Stale ==> tasks[j] in r
    ensures forall t :: t in r ==> exists j :: 0 <= j < |tasks| && tasks[j] == t && buckets[j] == Stale
    ensures |r| == multiset(buckets)[Stale]
  {
    PickCount(tasks, buckets, Stale);
    PickMembership(tasks, buckets, {Stale});
    Pick(tasks, buckets, {Stale})
  }

  /** One task is picked per position holding the bucket. */
  lemma {:induction false} PickCount(tasks: seq<Task>, buckets: seq<Bucket>, b: Bucket)
    requires |tasks| == |buckets|
    ensures |Pick(tasks, buckets, {b})| == multiset(buckets)[b]
  {
    if |tasks| > 0 {
      PickCount(tasks[1..], buckets[1..], b);
      assert buckets == [buckets[0]] + buckets[1..];
      assert multiset(buckets) == multiset([buckets[0]]) + multiset(buckets[1..]);
    }
  }

  /** A task is picked iff some position holding it has a wanted bucket. */
  lemma PickMembership(tasks: seq<Task>, buckets: seq<Bucket>, wanted: set<Bucket>)
    requires |tasks| == |buckets|
    ensures forall j :: 0 <= j < |tasks| && buckets[j] in wanted ==> tasks[j] in Pick(tasks, buckets, wanted)
    ensures forall t :: t in Pick(tasks, buckets, wanted) ==>
      exists j :: 0 <= j < |tasks| && tasks[j] == t && buckets[j] in wanted
  {
    forall j | 0 <= j < |tasks| && buckets[j] in wanted
      ensures tasks[j] in Pick(tasks, buckets, wanted)
    {
      PickContains(tasks, buckets, wanted, j);
    }
    forall t | t in Pick(tasks, buckets, wanted)
      ensures exists j :: 0 <= j < |tasks| && tasks[j] == t && buckets[j] in wanted
    {
      var j := PickMember(tasks, buckets, wanted, t);
    }
  }

  /** Picking a smaller set of buckets gives a subsequence. */
  lemma {:induction false} PickSubsequence(tasks: seq<Task>, buckets: seq<Bucket>, small: set<Bucket>, large: set<Bucket>)
    requires |tasks| == |buckets| && small <= large
    ensures Subsequence(Pick(tasks, buckets, small), Pick(tasks, buckets, large))
  {
    if |tasks| > 0 {
      var s := Pick(tasks[1..], buckets[1..], small);
      var l := Pick(tasks[1..], buckets[1..], large);
      PickSubsequence(tasks[1..], buckets[1..], small, large);
      var t := [tasks[0]];
      if buckets[0] in small {
        assert Pick(tasks, buckets, small) == t + s;
        assert Pick(tasks, buckets, large) == t + l;
        assert (t + s)[0] == (t + l)[0];
        assert (t + s)[1..] == s;
        assert (t + l)[1..] == l;
      } else if buckets[0] in large {
        assert Pick(tasks, buckets, small) == s;
        assert Pick(tasks, buckets, large) == t + l;
        assert (t + l)[1..] == l;
        if |s| > 0 {
          assert Subsequence(s, (t + l)[1..]);
        }
      } else {
        assert Pick(tasks, buckets, small) == s;
        assert Pick(tasks, buckets, large) == l;
      }
    }
  }

  /** Picking every bucket gives the list back. */
  lemma {:induction false} PickAll(tasks: seq<Task>, buckets: seq<Bucket>)
    requires |tasks| == |buckets|
    ensures Pick(tasks, buckets, {Push, Stale, Keep}) == tasks
  {
    if |tasks| > 0 {
      PickAll(tasks[1..], buckets[1..]);
      assert buckets[0].Push? || buckets[0].Stale? || buckets[0].Keep?;
      assert [tasks[0]] + tasks[1..] == tasks;
    }
  }

  /** Picking disjoint sets of buckets splits the multiset of tasks. */
  lemma {:induction false} PickSplits(tasks: seq<Task>, buckets: seq<Bucket>, a: set<Bucket>, b: set<Bucket>)
    requires |tasks| == |buckets| && a !! b
    ensures multiset(Pick(tasks, buckets, a)) + multiset(Pick(tasks, buckets, b))
            == multiset(Pick(tasks, buckets, a + b))
  {
    if |tasks| > 0 {
      PickSplits(tasks[1..], buckets[1..], a, b);
    }
  }

  /** A task whose bucket is wanted is picked, at a position no later than its own. */
  lemma {:induction false} PickContains(tasks: seq<Task>, buckets: seq<Bucket>, wanted: set<Bucket>, j: nat)
    requires |tasks| == |buckets| && j < |tasks| && buckets[j] in wanted
    ensures exists i :: 0 <= i < |Pick(tasks, buckets, wanted)| && Pick(tasks, buckets, wanted)[i] == tasks[j]
  {
    var p := Pick(tasks, buckets, wanted);
    if j == 0 {
      assert p[0] == tasks[0];
    } else {
      PickContains(tasks[1..], buckets[1..], wanted, j - 1);
      var rest := Pick(tasks[1..], buckets[1..], wanted);
      var i :| 0 <= i < |rest| && rest[i] == tasks[1..][j - 1];
      var head := if buckets[0] in wanted then [tasks[0]] else [];
      assert p == head + rest;
      assert p[|head| + i] == tasks[j];
    }
  }

  /** Every task lands in exactly one bucket: the cache list and the stale
      list split the task list, both keep its order, and the push list is a
      subsequence of the cache list. */
  lemma Partition(tasks: seq<Task>, buckets: seq<Bucket>)
    requires |tasks| == |buckets|
    ensures multiset(ToCache(tasks, buckets)) + multiset(StaleTasks(tasks, buckets)) == multiset(tasks)
    ensures |ToCache(tasks, buckets)| + |StaleTasks(tasks, buckets)| == |tasks|
    ensures multiset(ToNotion(tasks, buckets)) + multiset(Pick(tasks, buckets, {Keep}))
            == multiset(ToCache(tasks, buckets))
    ensures Subsequence(ToNotion(tasks, buckets), ToCache(tasks, buckets))
    ensures Subsequence(ToNotion(tasks, buckets), tasks)
    ensures Subsequence(ToCache(tasks, buckets), tasks)
    ensures Subsequence(StaleTasks(tasks, buckets), tasks)
  {
    PickSplits(tasks, buckets, {Push}, {Keep});
    assert {Push} + {Keep} == {Push, Keep};
    PickAll(tasks, buckets);
    PickSplits(tasks, buckets, {Push, Keep}, {Stale});
    assert {Push, Keep} + {Stale} == {Push, Stale, Keep};
    var whole := multiset(ToCache(tasks, buckets)) + multiset(StaleTasks(tasks, buckets));
    assert |whole| == |multiset(tasks)|;
    PickSubsequence(tasks, buckets, {Push}, {Push, Keep});
    PickSubsequence(tasks, buckets, {Push, Keep}, {Push, Stale, Keep});
    PickSubsequence(tasks, buckets, {Stale}, {Push, Stale, Keep});
    SubsequenceTransitive(ToNotion(tasks, buckets), ToCache(tasks, buckets), tasks);
  }

  /** What the classification promises about the lists, for classified tasks. */
  lemma {:induction false} ClassifiedLists(tasks: seq<Task>, pages: seq<Page>, buckets: seq<Bucket>)
    requires ClassifyReading(tasks, pages, CachedAttribute) == Success(buckets)
    // a never-cached task is always retained
    ensures forall j :: 0 <= j < |tasks| && !tasks[j].cached ==> tasks[j] in ToCache(tasks, buckets)
    // every pushed task is also retained
    ensures forall t :: t in ToNotion(tasks, buckets) ==> t in ToCache(tasks, buckets)
    // a stale task is a cached Notion task no page links to any more
    ensures forall t :: t in StaleTasks(tasks, buckets) ==>
      t.cached && t.source == NotionSource && Unlinked(t, pages)
  {
    forall j | 0 <= j < |tasks| && !tasks[j].cached
      ensures tasks[j] in ToCache(tasks, buckets)
    {
      assert Decide(tasks[j], pages) == Success(buckets[j]);
      PickContains(tasks, buckets, {Push, Keep}, j);
    }
    Partition(tasks, buckets);
    forall t | t in ToNotion(tasks, buckets)
      ensures t in ToCache(tasks, buckets)
    {
      var _ := PickMember(tasks, buckets, {Push}, t);
      PickSubsequence(tasks, buckets, {Push}, {Push, Keep});
      SubsequenceMember(ToNotion(tasks, buckets), ToCache(tasks, buckets), t);
    }
    forall t | t in StaleTasks(tasks, buckets)
      ensures t.cached && t.source == NotionSource && Unlinked(t, pages)
    {
      var j := PickMember(tasks, buckets, {Stale}, t);
      assert Decide(tasks[j], pages) == Success(buckets[j]);
    }
  }

  /** A picked task sits at some position whose bucket was wanted. */
  lemma {:induction false} PickMember(tasks: seq<Task>, buckets: seq<Bucket>, wanted: set<Bucket>, t: Task) returns (j: nat)
    requires |tasks| == |buckets| && t in Pick(tasks, buckets, wanted)
    ensures j < |tasks| && tasks[j] == t && buckets[j] in wanted
  {
    if buckets[0] in wanted && t == tasks[0] {
      j := 0;
    } else {
      var k := PickMember(tasks[1..], buckets[1..], wanted, t);
      j := k + 1;
    }
  }

  lemma {:induction false} SubsequenceMember<T>(a: seq<T>, b: seq<T>, x: T)
    requires Subsequence(a, b) && x in a
    ensures x in b
    decreases |b|
  {
    if a[0] == b[0] && Subsequence(a[1..], b[1..]) {
      if x != a[0] {
        SubsequenceMember(a[1..], b[1..], x);
      }
    } else {
      SubsequenceMember(a, b[1..], x);
    }
  }

  // ---------------------------------------------------------------------
  // Pushing (line 70) and the pass as a whole

  /** The `index`-th push's answer: `None` when the call raised. */
  type Responder = nat -> Option<Response>

  /** The retained tasks after the pushes settled: `asyncio.gather` runs
      `to_notion` on the very objects `tasks_to_cache` holds, so each pushed
      task is retained in its updated form. `k` counts the pushes so far. */
  function ApplyPushes(tasks: seq<Task>, buckets: seq<Bucket>, respond: Responder, k: nat): (r: Result<seq<Task>>)
    requires |tasks| == |buckets|
    ensures r.Success? ==> |r.value| <= |tasks|
    // the pushes succeed iff every one of them is answered with a stamp that parses
    ensures r.Success? <==> Answered(respond, k, multiset(buckets)[Push])
    // only a push that raised or an answer with a bad stamp aborts the pass
    ensures r.Failure? ==> r.error.PushFailed? || r.error.TimestampFormat?
  {
    if |tasks| == 0 then Success([])
    else
      CountCons(buckets);
      AnsweredCons(respond, k, multiset(buckets[1..])[Push]);
      if buckets[0] == Stale then
        ApplyPushes(tasks[1..], buckets[1..], respond, k)
      else if buckets[0] == Keep then
        var rest :- ApplyPushes(tasks[1..], buckets[1..], respond, k);
        Success([tasks[0]] + rest)
      else
        var response :- if respond(k).Some? then Success(respond(k).value) else Failure(PushFailed(k));
        var pushed :- AfterPush(tasks[0], response);
        var rest :- ApplyPushes(tasks[1..], buckets[1..], respond, k + 1);
        Success([pushed] + rest)
  }

  /** The answers numbered `from` to `from + count - 1` all arrived, and each
      carries a stamp that parses. */
  predicate Answered(respond: Responder, from: nat, count: nat) {
    forall n :: from <= n < from + count ==>
      respond(n).Some? && NormalizeNotionTimestamp(respond(n).value.lastEdited).Success?
  }

  lemma AnsweredCons(respond: Responder, from: nat, count: nat)
    ensures Answered(respond, from, count + 1) <==>
      && respond(from).Some? && NormalizeNotionTimestamp(respond(from).value.lastEdited).Success?
      && Answered(respond, from + 1, count)
    ensures Answered(respond, from, count) ==> forall c :: 0 <= c <= count ==> Answered(respond, from, c)
  {
  }

  /** How a bucket's count splits off the first position. */
  lemma CountCons(buckets: seq<Bucket>)
    requires |buckets| > 0
    ensures forall b :: multiset(buckets)[b] == multiset(buckets[1..])[b] + (if buckets[0] == b then 1 else 0)
  {
    assert buckets == [buckets[0]] + buckets[1..];
    assert multiset(buckets) == multiset([buckets[0]]) + multiset(buckets[1..]);
  }

  /** A pushed version of `before`: only the timestamp and the link may
      differ, and a link it already had is kept. */
  predicate PushedVersionOf(after: Task, before: Task) {
    && after.(timestamp := before.timestamp, notionId := before.notionId) == before
    && (Truthy(before.notionId) ==> after.notionId == before.notionId)
  }

  /** The buckets of the retained tasks, in order. */
  function Retained(buckets: seq<Bucket>): (r: seq<Bucket>)
    ensures |r| <= |buckets|
    ensures forall i :: 0 <= i < |r| ==> r[i] != Stale
  {
    if |buckets| == 0 then []
    else (if buckets[0] == Stale then [] else [buckets[0]]) + Retained(buckets[1..])
  }

  /** The number of the answer each retained task reads: the pushes are
      numbered from `k` in list order, and a kept task carries the number
      the next push would get. */
  function AnswerNumbers(kinds: seq<Bucket>, k: nat): (r: seq<nat>)
    ensures |r| == |kinds|
    ensures |kinds| > 0 ==> r[0] == k
    ensures forall i :: 0 <= i < |kinds| - 1 ==> r[i + 1] == r[i] + (if kinds[i] == Push then 1 else 0)
  {
    if |kinds| == 0 then []
    else
      var rest := AnswerNumbers(kinds[1..], if kinds[0] == Push then k + 1 else k);
      assert forall i :: 1 <= i < |kinds| - 1 ==> kinds[i] == kinds[1..][i - 1];
      [k] + rest
  }

  /** The retained task `after` is how `before` settled: a kept task is
      unchanged, and a pushed one is `to_notion`'s update with the `n`-th
      answer. */
  predicate Settled(after: Task, before: Task, kind: Bucket, respond: Responder, n: nat) {
    && (kind == Keep ==> after == before)
    && (kind == Push ==> respond(n).Some? && AfterPush(before, respond(n).value) == Success(after))
  }

  /** `Settled` with the answers fixed, as a relation between positions.
      The proofs quantify over this closure rather than over `Settled`
      itself, so the verifier does not unfold `AfterPush` at every position. */
  function SettledBy(respond: Responder): (Task, Task, Bucket, nat) -> bool {
    (after: Task, before: Task, kind: Bucket, n: nat) => Settled(after, before, kind, respond, n)
  }

  /** Applying the answers keeps `tasks_to_cache` position by position: a
      kept task is written unchanged, and the task of the `n`-th push
      (counting from `k`) is updated with the `n`-th answer, which changes at
      most its timestamp and link. */
  lemma ApplyPushesKeepsCacheList(tasks: seq<Task>, buckets: seq<Bucket>, respond: Responder, k: nat)
    requires |tasks| == |buckets|
    requires ApplyPushes(tasks, buckets, respond, k).Success?
    ensures var r := ApplyPushes(tasks, buckets, respond, k).value;
      var cache := ToCache(tasks, buckets);
      var kinds := Retained(buckets);
      var numbers := AnswerNumbers(kinds, k);
      && |r| == |cache| && |kinds| == |cache|
      && (forall i :: 0 <= i < |r| ==> Settled(r[i], cache[i], kinds[i], respond, numbers[i]))
      && (forall i :: 0 <= i < |r| ==> PushedVersionOf(r[i], cache[i]))
  {
    var r := ApplyPushes(tasks, buckets, respond, k).value;
    var cache := Pick(tasks, buckets, {Push, Keep});
    assert ToCache(tasks, buckets) == cache;
    var kinds := Retained(buckets);
    ApplyPushesSettles(tasks, buckets, respond, k);
    SettledEach(respond, r, cache, kinds, AnswerNumbers(kinds, k));
  }

  /** Each settled position, read through `Settled`; it is also a pushed
      version of the task it came from. */
  lemma SettledEach(respond: Responder, after: seq<Task>, before: seq<Task>, kinds: seq<Bucket>, numbers: seq<nat>)
    requires |after| == |before| == |kinds| == |numbers|
    requires forall i :: 0 <= i < |after| ==> SettledBy(respond)(after[i], before[i], kinds[i], numbers[i])
    requires forall i :: 0 <= i < |kinds| ==> kinds[i] != Stale
    ensures forall i :: 0 <= i < |after| ==> Settled(after[i], before[i], kinds[i], respond, numbers[i])
    ensures forall i :: 0 <= i < |after| ==> PushedVersionOf(after[i], before[i])
  {
    forall i | 0 <= i < |after|
      ensures Settled(after[i], before[i], kinds[i], respond, numbers[i])
      ensures PushedVersionOf(after[i], before[i])
    {
      SettledStep(respond, after[i], before[i], kinds[i], numbers[i]);
    }
  }

  lemma SettledStep(respond: Responder, after: Task, before: Task, kind: Bucket, n: nat)
    requires SettledBy(respond)(after, before, kind, n) && kind != Stale
    ensures Settled(after, before, kind, respond, n) && PushedVersionOf(after, before)
  {
  }

  lemma {:induction false} ApplyPushesSettles(tasks: seq<Task>, buckets: seq<Bucket>, respond: Responder, k: nat)
    requires |tasks| == |buckets|
    requires ApplyPushes(tasks, buckets, respond, k).Success?
    ensures var r := ApplyPushes(tasks, buckets, respond, k).value;
      var cache := Pick(tasks, buckets, {Push, Keep});
      var kinds := Retained(buckets);
      var numbers := AnswerNumbers(kinds, k);
      && |r| == |cache| == |kinds|
      && forall i :: 0 <= i < |r| ==> SettledBy(respond)(r[i], cache[i], kinds[i], numbers[i])
    decreases |tasks|
  {
    if |tasks| > 0 {
      var r := ApplyPushes(tasks, buckets, respond, k).value;
      var later := if buckets[0] == Push then k + 1 else k;
      ApplyPushesSettles(tasks[1..], buckets[1..], respond, later);
      var rest := ApplyPushes(tasks[1..], buckets[1..], respond, later).value;
      var cacheRest := Pick(tasks[1..], buckets[1..], {Push, Keep});
      var kindsRest := Retained(buckets[1..]);
      var numbersRest := AnswerNumbers(kindsRest, later);
      if buckets[0] == Stale {
        assert Pick(tasks, buckets, {Push, Keep}) == cacheRest;
        assert Retained(buckets) == kindsRest;
      } else {
        var cache := [tasks[0]] + cacheRest;
        var kinds := [buckets[0]] + kindsRest;
        assert Pick(tasks, buckets, {Push, Keep}) == cache;
        assert Retained(buckets) == kinds;
        assert kinds[1..] == kindsRest;
        var numbers := AnswerNumbers(kinds, k);
        assert numbers == [k] + numbersRest;
        assert r == [r[0]] + rest;
        assert Settled(r[0], cache[0], kinds[0], respond, k);
        ConsSettled(SettledBy(respond), r[0], rest, tasks[0], cacheRest, buckets[0], kindsRest, k, numbersRest);
      }
    }
  }

  /** Position-wise facts survive putting one more position in front. It is
      stated for any relation `ok` so that the step is proved once, without
      the definitions of the relation it is used with. */
  lemma ConsSettled(ok: (Task, Task, Bucket, nat) -> bool, x: Task, xs: seq<Task>, y: Task, ys: seq<Task>,
                    b: Bucket, bs: seq<Bucket>, n: nat, ns: seq<nat>)
    requires |xs| == |ys| == |bs| == |ns| && ok(x, y, b, n)
    requires forall i :: 0 <= i < |xs| ==> ok(xs[i], ys[i], bs[i], ns[i])
    ensures forall i :: 0 <= i < |xs| + 1 ==> ok(([x] + xs)[i], ([y] + ys)[i], ([b] + bs)[i], ([n] + ns)[i])
  {
    forall i | 0 <= i < |xs| + 1
      ensures ok(([x] + xs)[i], ([y] + ys)[i], ([b] + bs)[i], ([n] + ns)[i])
    {
      if i > 0 {
        assert ([x] + xs)[i] == xs[i - 1] && ([y] + ys)[i] == ys[i - 1];
        assert ([b] + bs)[i] == bs[i - 1] && ([n] + ns)[i] == ns[i - 1];
      }
    }
  }

  /** Every retained position of kind Push, numbered from `k`, names the
      entry of `pushed` it was taken from. */
  predicate Numbered(cache: seq<Task>, kinds: seq<Bucket>, numbers: seq<nat>, pushed: seq<Task>, k: nat)
    requires |cache| == |kinds| == |numbers|
  {
    forall i :: 0 <= i < |cache| && kinds[i] == Push ==>
      k <= numbers[i] < k + |pushed| && pushed[numbers[i] - k] == cache[i]
  }

  /** The `n`-th push (counting from `k`) is the `n`-th entry of
      `tasks_to_notion`: the retained task that reads answer `n` is the one
      the `n`-th request was built from. */
  lemma {:induction false} PushNumbering(tasks: seq<Task>, buckets: seq<Bucket>, k: nat)
    requires |tasks| == |buckets|
    ensures |Retained(buckets)| == |Pick(tasks, buckets, {Push, Keep})|
    ensures Numbered(Pick(tasks, buckets, {Push, Keep}), Retained(buckets),
                     AnswerNumbers(Retained(buckets), k), Pick(tasks, buckets, {Push}), k)
    decreases |tasks|
  {
    if |tasks| > 0 {
      var later := if buckets[0] == Push then k + 1 else k;
      PushNumbering(tasks[1..], buckets[1..], later);
      var cacheRest := Pick(tasks[1..], buckets[1..], {Push, Keep});
      var kindsRest := Retained(buckets[1..]);
      var numbersRest := AnswerNumbers(kindsRest, later);
      var pushedRest := Pick(tasks[1..], buckets[1..], {Push});
      if buckets[0] == Stale {
        assert Pick(tasks, buckets, {Push, Keep}) == cacheRest;
        assert Retained(buckets) == kindsRest;
        assert Pick(tasks, buckets, {Push}) == pushedRest;
      } else {
        var kinds := [buckets[0]] + kindsRest;
        assert Pick(tasks, buckets, {Push, Keep}) == [tasks[0]] + cacheRest;
        assert Retained(buckets) == kinds;
        assert Pick(tasks, buckets, {Push}) == if buckets[0] == Push then [tasks[0]] + pushedRest else pushedRest;
        assert kinds[1..] == kindsRest;
        assert AnswerNumbers(kinds, k) == [k] + numbersRest;
        NumberedCons(tasks[0], buckets[0], cacheRest, kindsRest, numbersRest, pushedRest, k);
      }
    }
  }

  /** Numbering survives putting one retained position in front. */
  lemma NumberedCons(t: Task, b: Bucket, cache: seq<Task>, kinds: seq<Bucket>, numbers: seq<nat>,
                     pushed: seq<Task>, k: nat)
    requires b != Stale && |cache| == |kinds| == |numbers|
    requires Numbered(cache, kinds, numbers, pushed, if b == Push then k + 1 else k)
    ensures Numbered([t] + cache, [b] + kinds, [k] + numbers,
                     if b == Push then [t] + pushed else pushed, k)
  {
    var pushed' := if b == Push then [t] + pushed else pushed;
    var cache', kinds', numbers' := [t] + cache, [b] + kinds, [k] + numbers;
    forall i | 0 <= i < |cache'| && kinds'[i] == Push
      ensures k <= numbers'[i] < k + |pushed'| && pushed'[numbers'[i] - k] == cache'[i]
    {
      if i > 0 {
        assert kinds[i - 1] == Push;
        assert cache'[i] == cache[i - 1] && numbers'[i] == numbers[i - 1];
      }
    }
  }

  /** What one pass hands to the outside world. */
  datatype Outcome = Outcome(
    requests: seq<PushRequest>,   // one per pushed task, in list order
    stale: seq<Task>,             // tasks dropped from the cache
    written: seq<Entry>)          // the cache file dump_cache writes

  /** test.py end to end, with the `from_cache` reads corrected to `cached`. */
  function Sync(file: Option<seq<Entry>>, pages: seq<Page>, env: Env, respond: Responder): (r: Result<Outcome>)
    // everything written is marked cached
    ensures r.Success? ==> forall i :: 0 <= i < |r.value.written| ==> r.value.written[i].cached
    // every task a request is sent for is also written to the cache
    ensures r.Success? ==> |r.value.requests| <= |r.value.written|
  {
    var tasks := LoadCache(file, env.now);
    var absorbed :- Absorb(tasks, pages, env);
    var buckets :- ClassifyReading(absorbed, pages, CachedAttribute);
    var toNotion := ToNotion(absorbed, buckets);
    var requests := seq(|toNotion|, i requires 0 <= i < |toNotion| => PushRequestOf(toNotion[i], env));
    var kept :- ApplyPushes(absorbed, buckets, respond, 0);
    ApplyPushesKeepsCacheList(absorbed, buckets, respond, 0);
    Success(Outcome(requests, StaleTasks(absorbed, buckets), DumpCache(kept)))
  }

  /** With no cache file and no pages, a pass sends, drops and writes nothing. */
  lemma SyncEmpty(env: Env, respond: Responder)
    ensures Sync(None, [], env, respond) == Success(Outcome([], [], []))
  {
    assert Absorb([], [], env) == Success([]);
    assert ClassifyReading([], [], CachedAttribute) == Success([]);
    assert ToNotion([], []) == [] && StaleTasks([], []) == [];
    assert ApplyPushes([], [], respond, 0) == Success([]);
    assert LoadCache(None, env.now) == [] && DumpCache([]) == [];
    var none: seq<Task> := [];
    assert seq(|none|, i requires 0 <= i < |none| => PushRequestOf(none[i], env)) == [];
  }

  /** A pass over well-formed pages succeeds when every push it can make is
      answered with a stamp that parses: there are at most as many pushes as
      loaded tasks and pages together. */
  lemma SyncSucceeds(file: Option<seq<Entry>>, pages: seq<Page>, env: Env, respond: Responder)
    ensures (forall k :: 0 <= k < |pages| ==> WellFormedPage(pages[k], env))
            && Answered(respond, 0, |LoadCache(file, env.now)| + |pages|)
            ==> Sync(file, pages, env, respond).Success?
  {
    if (forall k :: 0 <= k < |pages| ==> WellFormedPage(pages[k], env))
       && Answered(respond, 0, |LoadCache(file, env.now)| + |pages|) {
      var tasks := LoadCache(file, env.now);
      AbsorbWellFormed(tasks, pages, env);
      var absorbed := Absorb(tasks, pages, env).value;
      ClassifySucceeds(absorbed, pages);
      var buckets := ClassifyReading(absorbed, pages, CachedAttribute).value;
      assert |ToNotion(absorbed, buckets)| == multiset(buckets)[Push];
      AnsweredCons(respond, 0, |tasks| + |pages|);
      assert Answered(respond, 0, multiset(buckets)[Push]);
    }
  }

  /** The requests a pass sends: one per pushed task, in list order, built
      from that task; and the task that reads answer `n` when the pushes
      settle is the one request `n` was built from. */
  lemma SyncRequests(file: Option<seq<Entry>>, pages: seq<Page>, env: Env, respond: Responder)
    requires Sync(file, pages, env, respond).Success?
    ensures var out := Sync(file, pages, env, respond).value;
      var absorbed := Absorb(LoadCache(file, env.now), pages, env).value;
      var buckets := ClassifyReading(absorbed, pages, CachedAttribute).value;
      var pushed := ToNotion(absorbed, buckets);
      var cache := ToCache(absorbed, buckets);
      var kinds := Retained(buckets);
      var numbers := AnswerNumbers(kinds, 0);
      && |out.requests| == multiset(buckets)[Push]
      && (forall n :: 0 <= n < |out.requests| ==> out.requests[n] == PushRequestOf(pushed[n], env))
      && |kinds| == |cache|
      && (forall i :: 0 <= i < |cache| && kinds[i] == Push ==>
            numbers[i] < |out.requests| && out.requests[numbers[i]] == PushRequestOf(cache[i], env))
  {
    var absorbed := Absorb(LoadCache(file, env.now), pages, env).value;
    var buckets := ClassifyReading(absorbed, pages, CachedAttribute).value;
    PushNumbering(absorbed, buckets, 0);
    assert Numbered(Pick(absorbed, buckets, {Push, Keep}), Retained(buckets),
                    AnswerNumbers(Retained(buckets), 0), Pick(absorbed, buckets, {Push}), 0);
    assert ToNotion(absorbed, buckets) == Pick(absorbed, buckets, {Push});
    assert ToCache(absorbed, buckets) == Pick(absorbed, buckets, {Push, Keep});
  }

  /** A successful pass parsed every page's stamp: a malformed stamp aborts it. */
  lemma SyncParsesStamps(file: Option<seq<Entry>>, pages: seq<Page>, env: Env, respond: Responder)
    requires Sync(file, pages, env, respond).Success?
    ensures forall k :: 0 <= k < |pages| ==> NormalizeNotionTimestamp(pages[k].lastEdited).Success?
  {
    AbsorbParsesStamps(LoadCache(file, env.now), pages, env);
  }

  /** The cache entry `e` was written for `t`: it holds `t`'s name, source,
      dates, priority and CalDAV uid, is marked cached, and keeps any link
      `t` had. */
  predicate WrittenFrom(e: Entry, t: Task) {
    && e.cached
    && e.name == t.name && e.source == t.source && e.start == t.start && e.due == t.due
    && e.priority == t.priority && e.caldavUid == t.caldavUid
    && (Truthy(t.notionId) ==> e.notionId == t.notionId)
  }

  /** After classifying and pushing, every task is either stale or written. */
  lemma {:induction false} EveryTaskAccounted(tasks: seq<Task>, buckets: seq<Bucket>, respond: Responder, kept: seq<Task>)
    requires |tasks| == |buckets| && ApplyPushes(tasks, buckets, respond, 0) == Success(kept)
    ensures forall j :: 0 <= j < |tasks| ==>
      || tasks[j] in StaleTasks(tasks, buckets)
      || exists i :: 0 <= i < |DumpCache(kept)| && WrittenFrom(DumpCache(kept)[i], tasks[j])
  {
    ApplyPushesKeepsCacheList(tasks, buckets, respond, 0);
    var cache := ToCache(tasks, buckets);
    var written := DumpCache(kept);
    forall j | 0 <= j < |tasks| && tasks[j] !in StaleTasks(tasks, buckets)
      ensures exists i :: 0 <= i < |written| && WrittenFrom(written[i], tasks[j])
    {
      assert buckets[j] != Stale;
      assert tasks[j] in cache;
      var i :| 0 <= i < |cache| && cache[i] == tasks[j];
      assert PushedVersionOf(kept[i], cache[i]);
      assert written[i] == ToEntry(kept[i]).(cached := true);
      assert WrittenFrom(written[i], tasks[j]);
    }
  }

  /** Every loaded task keeps its slot through absorbing (its link, priority,
      CalDAV uid and cached flag), and afterwards is either dropped as stale
      or written to the cache; every written entry is marked cached. */
  lemma SyncAccounts(file: Option<seq<Entry>>, pages: seq<Page>, env: Env, respond: Responder)
    requires Sync(file, pages, env, respond).Success?
    ensures Absorb(LoadCache(file, env.now), pages, env).Success?
    ensures var out := Sync(file, pages, env, respond).value;
      var loaded := LoadCache(file, env.now);
      var absorbed := Absorb(loaded, pages, env).value;
      && (forall e :: e in out.written ==> e.cached)
      && |loaded| <= |absorbed|
      && (forall j :: 0 <= j < |loaded| ==> SameSlot(loaded[j], absorbed[j]))
      && (forall j :: 0 <= j < |absorbed| ==>
            || absorbed[j] in out.stale
            || exists i :: 0 <= i < |out.written| && WrittenFrom(out.written[i], absorbed[j]))
  {
    var tasks := LoadCache(file, env.now);
    var absorbed := Absorb(tasks, pages, env).value;
    var buckets := ClassifyReading(absorbed, pages, CachedAttribute).value;
    var kept := ApplyPushes(absorbed, buckets, respond, 0).value;
    assert Sync(file, pages, env, respond).value == Outcome(
      Sync(file, pages, env, respond).value.requests, StaleTasks(absorbed, buckets), DumpCache(kept));
    AbsorbGrows(tasks, pages, env);
    EveryTaskAccounted(absorbed, buckets, respond, kept);
  }

  /** Every stale task is a cached Notion task that no page links to. */
  lemma SyncStale(file: Option<seq<Entry>>, pages: seq<Page>, env: Env, respond: Responder)
    requires Sync(file, pages, env, respond).Success?
    ensures forall t :: t in Sync(file, pages, env, respond).value.stale ==>
      t.cached && t.source == NotionSource && Unlinked(t, pages)
  {
    var absorbed := Absorb(LoadCache(file, env.now), pages, env).value;
    var buckets := ClassifyReading(absorbed, pages, CachedAttribute).value;
    ClassifiedLists(absorbed, pages, buckets);
  }

  /** A task some page links to is never stale, so it reaches `tasks_to_cache`. */
  lemma {:induction false} LinkedTaskRetained(tasks: seq<Task>, pages: seq<Page>, buckets: seq<Bucket>, j: nat)
    requires ClassifyReading(tasks, pages, CachedAttribute) == Success(buckets)
    requires j < |tasks| && !Unlinked(tasks[j], pages)
    ensures exists i :: 0 <= i < |ToCache(tasks, buckets)| && ToCache(tasks, buckets)[i] == tasks[j]
  {
    assert Decide(tasks[j], pages) == Success(buckets[j]);
    assert buckets[j] != Stale;
    assert buckets[j] == Push || buckets[j] == Keep;
    PickContains(tasks, buckets, {Push, Keep}, j);
    var picked := Pick(tasks, buckets, {Push, Keep});
    assert ToCache(tasks, buckets) == picked;
    var i :| 0 <= i < |picked| && picked[i] == tasks[j];
    assert ToCache(tasks, buckets)[i] == tasks[j];
  }

  /** Every page with a non-empty id is linked from some written entry: a
      pass never loses a Notion page from the cache. */
  lemma SyncKeepsPages(file: Option<seq<Entry>>, pages: seq<Page>, env: Env, respond: Responder)
    requires Sync(file, pages, env, respond).Success?
    ensures var written := Sync(file, pages, env, respond).value.written;
      forall k :: 0 <= k < |pages| && pages[k].id != "" ==>
        exists j :: 0 <= j < |written| && written[j].notionId == Some(pages[k].id)
  {
    var tasks := LoadCache(file, env.now);
    var absorbed := Absorb(tasks, pages, env).value;
    var buckets := ClassifyReading(absorbed, pages, CachedAttribute).value;
    var kept := ApplyPushes(absorbed, buckets, respond, 0).value;
    var written := DumpCache(kept);
    assert written == Sync(file, pages, env, respond).value.written;
    AbsorbCoversPages(tasks, pages, env);
    AbsorbParsesStamps(tasks, pages, env);
    ApplyPushesKeepsCacheList(absorbed, buckets, respond, 0);
    var toCache := ToCache(absorbed, buckets);
    forall k | 0 <= k < |pages| && pages[k].id != ""
      ensures exists j :: 0 <= j < |written| && written[j].notionId == Some(pages[k].id)
    {
      var j :| 0 <= j < |absorbed| && absorbed[j].notionId == Some(pages[k].id);
      assert absorbed[j].notionId == Some(pages[k].id);
      assert !Unlinked(absorbed[j], pages);
      LinkedTaskRetained(absorbed, pages, buckets, j);
      var i :| 0 <= i < |toCache| && toCache[i] == absorbed[j];
      assert PushedVersionOf(kept[i], toCache[i]);
      assert written[i].notionId == kept[i].notionId;
    }
  }
}

=== FILE: seqs.dfy ===
/** Sequence helpers shared by the reconciliation pass: Python's
    `next((x for x in xs if p(x)), None)` and order-preserving subsequences. */
module Seqs {
  import opened Wrappers

  /** The index of the first element satisfying `p`, as `next(...)` picks it. */
  function FirstIndex<T>(s: seq<T>, p: T -> bool): (r: Option<nat>)
    ensures r.Some? ==> r.value < |s| && p(s[r.value])
    ensures r.Some? ==> forall j :: 0 <= j < r.value ==> !p(s[j])
    ensures r.None? <==> forall j :: 0 <= j < |s| ==> !p(s[j])
  {
    if |s| == 0 then None
    else if p(s[0]) then Some(0)
    else match FirstIndex(s[1..], p)
      case None => None
      case Some(k) => Some(k + 1)
  }

  /** `a` can be obtained from `b` by deleting elements, keeping the order. */
  ghost predicate Subsequence<T>(a: seq<T>, b: seq<T>)
    decreases |b|
  {
    if |a| == 0 then true
    else if |b| == 0 then false
    else (a[0] == b[0] && Subsequence(a[1..], b[1..])) || Subsequence(a, b[1..])
  }

  /** Deleting from a subsequence of `c` gives a subsequence of `c`. */
  lemma {:induction false} SubsequenceTransitive<T>(a: seq<T>, b: seq<T>, c: seq<T>)
    requires Subsequence(a, b) && Subsequence(b, c)
    ensures Subsequence(a, c)
    decreases |c|
  {
    if |a| == 0 {
    } else if |b| > 0 && b[0] == c[0] && Subsequence(b[1..], c[1..]) {
      if a[0] == b[0] && Subsequence(a[1..], b[1..]) {
        SubsequenceTransitive(a[1..], b[1..], c[1..]);
      } else {
        SubsequenceTransitive(a, b[1..], c[1..]);
      }
    } else {
      SubsequenceTransitive(a, b, c[1..]);
    }
  }
}

=== FILE: stamp.dfy ===
/** Notion's `last_edited_time` stamps (notion_caldav.py, `utc_from_notion_stamp`
    and `normalize_notion_timestamp`). The source parses them with
    `datetime.strptime(time, '%Y-%m-%dT%H:%M:%S.%fZ')` and localises the
    result to UTC; here the parser is a partial function onto a broken-down
    instant, and an instant is turned into microseconds since
    1970-01-01T00:00:00Z, the integer timestamp the rest of the model compares. */
module Stamp {
  import opened Wrappers

  /** A broken-down UTC instant, as a `datetime` holds it. */
  datatype Instant = Instant(year: int, month: int, day: int,
                             hour: int, minute: int, second: int, micro: int)

  // ---------------------------------------------------------------------
  // Gregorian calendar (Python's `datetime` range: years 1 to 9999)

  predicate IsLeap(y: int) {
    y % 4 == 0 && (y % 100 != 0 || y % 400 == 0)
  }

  function DaysInYear(y: int): int {
    if IsLeap(y) then 366 else 365
  }

  function DaysInMonth(y: int, m: int): int
    requires 1 <= m <= 12
  {
    if m == 2 then (if IsLeap(y) then 29 else 28)
    else if m == 4 || m == 6 || m == 9 || m == 11 then 30
    else 31
  }

  /** Days of year `y` before the first of month `m`. */
  function DaysBeforeMonth(y: int, m: int): int
    requires 1 <= m <= 12
  {
    [0, 31, 59, 90, 120, 151, 181, 212, 243, 273, 304, 334][m - 1]
      + (if m > 2 && IsLeap(y) then 1 else 0)
  }

  /** Days from 0001-01-01 to the first of January of year `y`. */
  function DaysBeforeYear(y: int): int
    requires y >= 1
    decreases y
  {
    if y == 1 then 0 else DaysBeforeYear(y - 1) + DaysInYear(y - 1)
  }

  /** Days from 0001-01-01 to the given date (Python's `toordinal() - 1`). */
  function DayNumber(y: int, m: int, d: int): int
    requires y >= 1 && 1 <= m <= 12
  {
    DaysBeforeYear(y) + DaysBeforeMonth(y, m) + d - 1
  }

  /** What `datetime`'s constructor accepts: anything else raises ValueError. */
  predicate ValidInstant(i: Instant) {
    && 1 <= i.year <= 9999
    && 1 <= i.month <= 12
    && 1 <= i.day <= DaysInMonth(i.year, i.month)
    && 0 <= i.hour < 24
    && 0 <= i.minute < 60
    && 0 <= i.second < 60
    && 0 <= i.micro < 1000000
  }

  /** Microseconds in `days` whole days. */
  function DaySpan(days: int): int {
    days * 86400000000
  }

  /** Microseconds since midnight. */
  function TimeOfDay(i: Instant): int {
    ((i.hour * 60 + i.minute) * 60 + i.second) * 1000000 + i.micro
  }

  /** Microseconds since the Unix epoch; the model's timestamp. Its whole
      days are the date's distance from 1970-01-01 and the rest is the time
      of day. */
  function ToMicros(i: Instant): (r: int)
    requires ValidInstant(i)
    ensures r / 86400000000 == DayNumber(i.year, i.month, i.day) - DayNumber(1970, 1, 1)
    ensures r % 86400000000 == TimeOfDay(i)
  {
    DaySpan(DayNumber(i.year, i.month, i.day) - DayNumber(1970, 1, 1)) + TimeOfDay(i)
  }

  /** Chronological order of broken-down instants: field by field, most
      significant first. */
  predicate Before(a: Instant, b: Instant) {
    || a.year < b.year
    || (a.year == b.year && a.month < b.month)
    || (a.year == b.year && a.month == b.month && a.day < b.day)
    || (a.year == b.year && a.month == b.month && a.day == b.day && a.hour < b.hour)
    || (a.year == b.year && a.month == b.month && a.day == b.day && a.hour == b.hour
        && a.minute < b.minute)
    || (a.year == b.year && a.month == b.month && a.day == b.day && a.hour == b.hour
        && a.minute == b.minute && a.second < b.second)
    || (a.year == b.year && a.month == b.month && a.day == b.day && a.hour == b.hour
        && a.minute == b.minute && a.second == b.second && a.micro < b.micro)
  }

  // ---------------------------------------------------------------------
  // Decimal digits

  predicate IsDigit(c: char) {
    '0' <= c <= '9'
  }

  predicate AllDigits(s: string) {
    forall k :: 0 <= k < |s| ==> IsDigit(s[k])
  }

  function DigitsValue(s: string): nat
    requires AllDigits(s)
  {
    if |s| == 0 then 0
    else DigitsValue(s[..|s| - 1]) * 10 + (s[|s| - 1] as int - '0' as int)
  }

  function Pow10(n: nat): nat
    ensures Pow10(n) >= 1
  {
    if n == 0 then 1 else 10 * Pow10(n - 1)
  }

  /** `n` written with exactly `width` digits, zero-padded on the left. */
  function Render(n: nat, width: nat): (r: string)
    requires n < Pow10(width)
    ensures |r| == width && AllDigits(r)
    ensures DigitsValue(r) == n
  {
    if width == 0 then ""
    else
      var prefix := Render(n / 10, width - 1);
      var r := prefix + [('0' as int + n % 10) as char];
      assert r[..|r| - 1] == prefix;
      r
  }

  // ---------------------------------------------------------------------
  // The parser and its inverse

  /** The fixed separators of '%Y-%m-%dT%H:%M:%S.%fZ'. `_strptime` matches
      literal letters case-insensitively, so 't' and 'z' are accepted too. */
  predicate Separators(s: string) {
    && 22 <= |s| <= 27
    && s[4] == '-' && s[7] == '-'
    && (s[10] == 'T' || s[10] == 't')
    && s[13] == ':' && s[16] == ':' && s[19] == '.'
    && (s[|s| - 1] == 'Z' || s[|s| - 1] == 'z')
  }

  /** Every numeric field is a run of decimal digits: four for the year, two
      for each of month, day, hour, minute and second, and one to six for the
      fraction (whose length the length bounds of `Separators` fix). */
  predicate DigitFields(s: string)
    requires Separators(s)
  {
    && AllDigits(s[0..4]) && AllDigits(s[5..7]) && AllDigits(s[8..10])
    && AllDigits(s[11..13]) && AllDigits(s[14..16]) && AllDigits(s[17..19])
    && AllDigits(s[20..|s| - 1])
  }

  /** The broken-down value of a well-shaped stamp; `%f` right-pads the
      fraction with zeros to six digits. */
  function Fields(s: string): Instant
    requires Separators(s) && DigitFields(s)
  {
    var frac := s[20..|s| - 1];
    Instant(DigitsValue(s[0..4]), DigitsValue(s[5..7]), DigitsValue(s[8..10]),
            DigitsValue(s[11..13]), DigitsValue(s[14..16]), DigitsValue(s[17..19]),
            DigitsValue(frac) * Pow10(6 - |frac|))
  }

  /** `utc_from_notion_stamp`: `None` where strptime or the `datetime`
      constructor raises; otherwise each field is the number its digits
      spell, and the fraction is scaled to microseconds. */
  function UtcFromNotionStamp(s: string): (r: Option<Instant>)
    ensures r.Some? <==> Separators(s) && DigitFields(s) && ValidInstant(Fields(s))
    ensures r.Some? ==> ValidInstant(r.value)
    ensures r.Some? ==>
      && r.value.year == DigitsValue(s[0..4]) && r.value.month == DigitsValue(s[5..7])
      && r.value.day == DigitsValue(s[8..10]) && r.value.hour == DigitsValue(s[11..13])
      && r.value.minute == DigitsValue(s[14..16]) && r.value.second == DigitsValue(s[17..19])
      && r.value.micro == DigitsValue(s[20..|s| - 1]) * Pow10(27 - |s|)
  {
    if Separators(s) && DigitFields(s) && ValidInstant(Fields(s)) then Some(Fields(s))
    else None
  }

  /** How a stamp is written: the number of fraction digits (Notion sends
      three, milliseconds) and the case of the two separator letters. */
  datatype Style = Style(width: nat, tee: char, zed: char)

  /** A style the parser accepts that can write `i` exactly: the dropped
      fraction digits of `i` are zeros. */
  predicate Writes(style: Style, i: Instant) {
    && 1 <= style.width <= 6
    && (style.tee == 'T' || style.tee == 't')
    && (style.zed == 'Z' || style.zed == 'z')
    && i.micro % Pow10(6 - style.width) == 0
  }

  /** Cutting a microsecond count down to `width` digits and scaling it back. */
  lemma FractionScale(micro: int, width: nat)
    requires 0 <= micro < 1000000 && 1 <= width <= 6
    ensures 0 <= micro / Pow10(6 - width) < Pow10(width)
    ensures micro % Pow10(6 - width) == 0 ==> (micro / Pow10(6 - width)) * Pow10(6 - width) == micro
  {
    assert Pow10(0) == 1 && Pow10(1) == 10 && Pow10(2) == 100 && Pow10(3) == 1000;
    assert Pow10(4) == 10000 && Pow10(5) == 100000 && Pow10(6) == 1000000;
  }

  /** The leading `width` digits of a six-digit microsecond field, as a
      number; they scale back to the field when the dropped digits are zeros. */
  function Fraction(micro: int, width: nat): (r: nat)
    requires 0 <= micro < 1000000 && 1 <= width <= 6
    ensures r < Pow10(width)
    ensures micro % Pow10(6 - width) == 0 ==> r * Pow10(6 - width) == micro
  {
    FractionScale(micro, width);
    micro / Pow10(6 - width)
  }

  /** `i` written as a stamp in the given style; Notion writes three fraction
      digits and upper-case letters. */
  function FormatStamp(i: Instant, style: Style): (s: string)
    requires ValidInstant(i) && Writes(style, i)
    ensures |s| == 21 + style.width
  {
    Assemble(Render(i.year, 4), Render(i.month, 2), Render(i.day, 2), style.tee,
             Render(i.hour, 2), Render(i.minute, 2), Render(i.second, 2),
             Render(Fraction(i.micro, style.width), style.width), style.zed)
  }

  /** The fields of a stamp put between its separators. */
  function Assemble(y: string, mo: string, d: string, tee: char, h: string, mi: string, se: string,
                    f: string, zed: char): (s: string)
    ensures |s| == |y| + |mo| + |d| + |h| + |mi| + |se| + |f| + 7
  {
    y + "-" + mo + "-" + d + [tee] + h + ":" + mi + ":" + se + "." + f + [zed]
  }

  lemma SliceOfConcat(p: string, x: string, q: string)
    ensures (p + x + q)[|p|..|p| + |x|] == x
  {
  }

  /** Where each field sits in an assembled stamp. */
  lemma {:induction false} AssembleLayout(y: string, mo: string, d: string, tee: char, h: string,
                                          mi: string, se: string, f: string, zed: char)
    requires |y| == 4 && |mo| == 2 && |d| == 2 && |h| == 2 && |mi| == 2 && |se| == 2
    ensures var s := Assemble(y, mo, d, tee, h, mi, se, f, zed);
      && |s| == 21 + |f|
      && s[0..4] == y && s[5..7] == mo && s[8..10] == d && s[11..13] == h
      && s[14..16] == mi && s[17..19] == se && s[20..|s| - 1] == f
      && s[4] == '-' && s[7] == '-' && s[10] == tee && s[13] == ':'
      && s[16] == ':' && s[19] == '.' && s[|s| - 1] == zed
  {
    var s := Assemble(y, mo, d, tee, h, mi, se, f, zed);
    var t, z := [tee], [zed];
    var p0 := y + "-";
    var p1 := p0 + mo + "-";
    var p2 := p1 + d + t;
    var p3 := p2 + h + ":";
    var p4 := p3 + mi + ":";
    var p5 := p4 + se + ".";
    assert s == p5 + f + z;
    SliceOfConcat([], y, "-" + mo + "-" + d + t + h + ":" + mi + ":" + se + "." + f + z);
    SliceOfConcat(p0, mo, "-" + d + t + h + ":" + mi + ":" + se + "." + f + z);
    SliceOfConcat(p1, d, t + h + ":" + mi + ":" + se + "." + f + z);
    SliceOfConcat(p2, h, ":" + mi + ":" + se + "." + f + z);
    SliceOfConcat(p3, mi, ":" + se + "." + f + z);
    SliceOfConcat(p4, se, "." + f + z);
    SliceOfConcat(p5, f, z);
  }

  /** An assembled stamp whose fields are digit runs of the right lengths
      passes the parser's shape checks. */
  lemma AssembledShape(y: string, mo: string, d: string, tee: char, h: string,
                       mi: string, se: string, f: string, zed: char)
    requires |y| == 4 && |mo| == 2 && |d| == 2 && |h| == 2 && |mi| == 2 && |se| == 2
    requires 1 <= |f| <= 6 && (tee == 'T' || tee == 't') && (zed == 'Z' || zed == 'z')
    requires AllDigits(y) && AllDigits(mo) && AllDigits(d) && AllDigits(h)
    requires AllDigits(mi) && AllDigits(se) && AllDigits(f)
    ensures var s := Assemble(y, mo, d, tee, h, mi, se, f, zed);
      && Separators(s) && DigitFields(s)
      && s[0..4] == y && s[5..7] == mo && s[8..10] == d && s[11..13] == h
      && s[14..16] == mi && s[17..19] == se && s[20..|s| - 1] == f
  {
    AssembleLayout(y, mo, d, tee, h, mi, se, f, zed);
  }

  /** ... and reads back as those digits. */
  lemma ParseAssembled(y: string, mo: string, d: string, tee: char, h: string,
                       mi: string, se: string, f: string, zed: char)
    requires |y| == 4 && |mo| == 2 && |d| == 2 && |h| == 2 && |mi| == 2 && |se| == 2
    requires 1 <= |f| <= 6 && (tee == 'T' || tee == 't') && (zed == 'Z' || zed == 'z')
    requires AllDigits(y) && AllDigits(mo) && AllDigits(d) && AllDigits(h)
    requires AllDigits(mi) && AllDigits(se) && AllDigits(f)
    ensures var s := Assemble(y, mo, d, tee, h, mi, se, f, zed);
      && Separators(s) && DigitFields(s)
      && Fields(s) == Instant(DigitsValue(y), DigitsValue(mo), DigitsValue(d), DigitsValue(h),
                              DigitsValue(mi), DigitsValue(se), DigitsValue(f) * Pow10(6 - |f|))
  {
    AssembledShape(y, mo, d, tee, h, mi, se, f, zed);
  }

  /** The stamp written for `i` has the parser's shape and its fields spell
      `i`. */
  lemma {:induction false} FormatFields(i: Instant, style: Style)
    requires ValidInstant(i) && Writes(style, i)
    ensures var s := FormatStamp(i, style); Separators(s) && DigitFields(s) && Fields(s) == i
  {
    var y, mo, d := Render(i.year, 4), Render(i.month, 2), Render(i.day, 2);
    var h, mi, se := Render(i.hour, 2), Render(i.minute, 2), Render(i.second, 2);
    var f := Render(Fraction(i.micro, style.width), style.width);
    var s := Assemble(y, mo, d, style.tee, h, mi, se, f, style.zed);
    assert s == FormatStamp(i, style);
    ParseAssembled(y, mo, d, style.tee, h, mi, se, f, style.zed);
    assert DigitsValue(f) * Pow10(6 - |f|) == i.micro;
  }

  /** Parsing the stamp of any valid instant, in any style that can write
      it, gives the instant back. */
  lemma ParseFormat(i: Instant, style: Style)
    requires ValidInstant(i) && Writes(style, i)
    ensures UtcFromNotionStamp(FormatStamp(i, style)) == Some(i)
  {
    FormatFields(i, style);
  }

  /** Notion's own millisecond form: `2020-03-17T19:10:04.968Z` is
      19:10:04.968 on 17 March 2020. */
  lemma ParseMillisecondStamp()
    ensures UtcFromNotionStamp(NotionExample) == Some(Instant(2020, 3, 17, 19, 10, 4, 968000))
  {
    var i := Instant(2020, 3, 17, 19, 10, 4, 968000);
    ExampleSlices();
    assert Separators(NotionExample);
    assert DigitFields(NotionExample) && Fields(NotionExample) == i by {
      ExampleDigits();
    }
    assert ValidInstant(i);
  }

  const NotionExample := "2020-03-17T19:10:04.968Z"

  lemma ExampleSlices()
    ensures |NotionExample| == 24
    ensures NotionExample[0..4] == "2020" && NotionExample[5..7] == "03"
    ensures NotionExample[8..10] == "17" && NotionExample[11..13] == "19"
    ensures NotionExample[14..16] == "10" && NotionExample[17..19] == "04"
    ensures NotionExample[20..23] == "968"
  {
    var s := NotionExample;
    assert s[0..4] == [s[0], s[1], s[2], s[3]];
    assert s[5..7] == [s[5], s[6]];
    assert s[8..10] == [s[8], s[9]];
    assert s[11..13] == [s[11], s[12]];
    assert s[14..16] == [s[14], s[15]];
    assert s[17..19] == [s[17], s[18]];
    assert s[20..23] == [s[20], s[21], s[22]];
  }

  lemma ExampleDigits()
    ensures DigitsValue("2020") == 2020 && DigitsValue("03") == 3
    ensures DigitsValue("17") == 17 && DigitsValue("19") == 19
    ensures DigitsValue("10") == 10 && DigitsValue("04") == 4
    ensures DigitsValue("968") == 968 && Pow10(3) == 1000
  {
    DigitsOf("2020");
    DigitsOf("03");
    DigitsOf("17");
    DigitsOf("19");
    DigitsOf("10");
    DigitsOf("04");
    DigitsOf("968");
  }

  /** The value of a short run of digits, written out. */
  lemma DigitsOf(s: string)
    requires 2 <= |s| <= 4 && AllDigits(s)
    ensures |s| == 2 ==> DigitsValue(s) == (s[0] as int - 48) * 10 + (s[1] as int - 48)
    ensures |s| == 3 ==> DigitsValue(s) == (s[0] as int - 48) * 100 + (s[1] as int - 48) * 10 + (s[2] as int - 48)
    ensures |s| == 4 ==> DigitsValue(s) == (s[0] as int - 48) * 1000 + (s[1] as int - 48) * 100
                                          + (s[2] as int - 48) * 10 + (s[3] as int - 48)
  {
    assert s[..|s| - 1][..|s| - 2] == s[..|s| - 2];
    if |s| >= 3 {
      assert s[..|s| - 2][..|s| - 3] == s[..|s| - 3];
    }
    if |s| == 4 {
      assert s[..1][..0] == [];
    }
  }

  /** `normalize_notion_timestamp`, as the integer timestamp it denotes; a
      stamp strptime rejects raises TimestampFormat. */
  function NormalizeNotionTimestamp(s: string): (r: Result<int>)
    ensures r.Success? <==> UtcFromNotionStamp(s).Some?
    ensures r.Success? ==> r.value == ToMicros(UtcFromNotionStamp(s).value)
    ensures r.Failure? ==> r.error == TimestampFormat(s)
  {
    match UtcFromNotionStamp(s)
    case None => Failure(TimestampFormat(s))
    case Some(i) => Success(ToMicros(i))
  }

  /** A stamp written in any accepted style normalises to the instant's
      microsecond count. */
  lemma NormalizeFormat(i: Instant, style: Style)
    requires ValidInstant(i) && Writes(style, i)
    ensures NormalizeNotionTimestamp(FormatStamp(i, style)) == Success(ToMicros(i))
  {
    ParseFormat(i, style);
  }

  // ---------------------------------------------------------------------
  // The integer timestamp orders instants chronologically

  lemma {:induction false} DaysBeforeYearGrows(y1: int, y2: int)
    requires 1 <= y1 < y2
    ensures DaysBeforeYear(y1) + DaysInYear(y1) <= DaysBeforeYear(y2)
    decreases y2
  {
    if y1 + 1 < y2 {
      DaysBeforeYearGrows(y1, y2 - 1);
    }
  }

  lemma MonthsFitInYear(y: int, m: int)
    requires 1 <= m <= 12
    ensures DaysBeforeMonth(y, m) + DaysInMonth(y, m) <= DaysInYear(y)
  {
  }

  lemma MonthsGrow(y: int, m1: int, m2: int)
    requires 1 <= m1 < m2 <= 12
    ensures DaysBeforeMonth(y, m1) + DaysInMonth(y, m1) <= DaysBeforeMonth(y, m2)
  {
  }

  /** Day numbers follow the (year, month, day) order. */
  lemma DayNumberOrder(a: Instant, b: Instant)
    requires ValidInstant(a) && ValidInstant(b)
    requires a.year < b.year || (a.year == b.year && a.month < b.month)
             || (a.year == b.year && a.month == b.month && a.day < b.day)
    ensures DayNumber(a.year, a.month, a.day) < DayNumber(b.year, b.month, b.day)
  {
    if a.year < b.year {
      MonthsFitInYear(a.year, a.month);
      DaysBeforeYearGrows(a.year, b.year);
    } else if a.month < b.month {
      MonthsGrow(a.year, a.month, b.month);
    }
  }

  lemma TimeOfDayBounds(i: Instant)
    requires ValidInstant(i)
    ensures 0 <= TimeOfDay(i) < 86400000000
  {
  }

  lemma {:induction false} BeforeMeansEarlier(a: Instant, b: Instant)
    requires ValidInstant(a) && ValidInstant(b) && Before(a, b)
    ensures ToMicros(a) < ToMicros(b)
  {
    var e := DayNumber(1970, 1, 1);
    var da := DayNumber(a.year, a.month, a.day) - e;
    var db := DayNumber(b.year, b.month, b.day) - e;
    if a.year < b.year || (a.year == b.year && a.month < b.month)
       || (a.year == b.year && a.month == b.month && a.day < b.day)
    {
      DayNumberOrder(a, b);
      TimeOfDayBounds(a);
      TimeOfDayBounds(b);
      assert DaySpan(da) + 86400000000 <= DaySpan(db);
    } else {
      assert da == db;
    }
  }

  /** The integer comparison of test.py agrees with chronological order, in
      both directions, so a strictly later stamp is a strictly larger integer. */
  lemma ToMicrosOrder(a: Instant, b: Instant)
    requires ValidInstant(a) && ValidInstant(b)
    ensures Before(a, b) <==> ToMicros(a) < ToMicros(b)
    ensures a == b <==> ToMicros(a) == ToMicros(b)
  {
    if Before(a, b) {
      BeforeMeansEarlier(a, b);
    } else if Before(b, a) {
      BeforeMeansEarlier(b, a);
    }
  }
}

=== FILE: tasks.dfy ===
/** The `Task` record of notion_caldav.py and its transitions: construction,
    absorbing a Notion page (`update_with_notion`, `from_notion`), building
    the outgoing properties (`notion_properties`) and the effect of a push
    (`to_notion`) on the record once Notion has answered. */
module Tasks {
  import opened Wrappers
  import opened Stamp
  import opened Dates

  /** One task. `timestamp` is the last-modified instant in microseconds
      since the Unix epoch (the source keeps its ISO-8601 text). */
  datatype Task = Task(
    name: string,
    source: string,
    start: Option<string>,
    due: Option<string>,
    priority: Option<int>,
    timestamp: int,
    notionId: Option<string>,
    caldavUid: Option<string>,
    cached: bool)

  /** The `source` of a task that came from Notion. */
  const NotionSource := "notion"

  /** The placeholder name `from_notion` starts from. */
  const NewTaskName := "New Task"

  /** What the core reads from outside: the configured date property and
      database id, the date normaliser of `fromiso`, and the clock reading
      `datetime.now(pytz.utc)` would give. */
  datatype Env = Env(dateProperty: string, databaseId: string, norm: Normaliser, now: int)

  /** A page as returned by the Notion API, reduced to what the core reads:
      its id, the text contents of its title items, its property values keyed
      by property name (only date values are modelled) and its stamp. */
  datatype Page = Page(id: string, title: seq<string>, dates: map<string, JsonDate>, lastEdited: string)

  /** `Task.__init__` (lines 32-56). The id is first reset to None (line 49)
      and then set from the argument (line 54); a missing timestamp falls back
      to the clock. */
  function NewTask(name: string, source: string, start: Option<string>, due: Option<string>,
                   priority: Option<int>, timestamp: Option<int>, notionId: Option<string>,
                   caldavUid: Option<string>, cached: bool, now: int): (t: Task)
    ensures t.notionId == notionId
    ensures timestamp.Some? ==> t.timestamp == timestamp.value
    ensures timestamp.None? ==> t.timestamp == now
    ensures t.name == name && t.source == source && t.start == start && t.due == due
    ensures t.priority == priority && t.caldavUid == caldavUid && t.cached == cached
  {
    var reset := Task(name, source, start, due, priority, 0, None, None, false);
    var stamped := reset.(timestamp := if timestamp.Some? then timestamp.value else now);
    stamped.(notionId := notionId, caldavUid := caldavUid, cached := cached)
  }

  /** A page every read of `update_with_notion` accepts: it has a first
      title item, the configured date property, a date that maps and a stamp
      that parses. */
  predicate WellFormedPage(page: Page, env: Env) {
    && |page.title| > 0
    && env.dateProperty in page.dates
    && DateMapping(env.norm, page.dates[env.dateProperty]).Success?
    && NormalizeNotionTimestamp(page.lastEdited).Success?
  }

  /** `update_with_notion` (lines 64-70). Its reads fail in source order: the
      first title item, the date property, the date mapping, the stamp. */
  function UpdateWithNotion(t: Task, page: Page, env: Env): (r: Result<Task>)
    ensures r.Success? <==> WellFormedPage(page, env)
    ensures r.Success? ==>
      && r.value.name == page.title[0]
      && r.value.source == NotionSource
      && r.value.notionId == Some(page.id)
      && r.value.timestamp == NormalizeNotionTimestamp(page.lastEdited).value
      && Pair(r.value.start, r.value.due) == DateMapping(env.norm, page.dates[env.dateProperty]).value
      && r.value.priority == t.priority
      && r.value.caldavUid == t.caldavUid
      && r.value.cached == t.cached
    ensures |page.title| == 0 ==> r == Failure(EmptyTitle)
  {
    if |page.title| == 0 then Failure(EmptyTitle)
    else
      var named := t.(name := page.title[0], source := NotionSource);
      if env.dateProperty !in page.dates then Failure(MissingDateProperty(env.dateProperty))
      else
        var dates :- DateMapping(env.norm, page.dates[env.dateProperty]);
        var dated := named.(start := dates.first, due := dates.second, notionId := Some(page.id));
        var stamp :- NormalizeNotionTimestamp(page.lastEdited);
        Success(dated.(timestamp := stamp))
  }

  /** `Task.from_notion` (lines 58-62): a fresh, never-cached task filled in
      from the page. */
  function FromNotion(page: Page, env: Env): (r: Result<Task>)
    ensures r.Success? <==> WellFormedPage(page, env)
    ensures r.Success? ==>
      && r.value.source == NotionSource
      && r.value.notionId == Some(page.id)
      && r.value.name == page.title[0]
      && r.value.timestamp == NormalizeNotionTimestamp(page.lastEdited).value
      && Pair(r.value.start, r.value.due) == DateMapping(env.norm, page.dates[env.dateProperty]).value
      && !r.value.cached
      && r.value.priority.None? && r.value.caldavUid.None?
  {
    UpdateWithNotion(NewTask(NewTaskName, NotionSource, None, None, None, None, None, None, false, env.now), page, env)
  }

  /** The clock reading the constructor falls back to is always overwritten:
      `from_notion` does not depend on it. */
  lemma FromNotionIgnoresClock(page: Page, env: Env, now: int)
    ensures FromNotion(page, env) == FromNotion(page, env.(now := now))
  {
  }

  // ---------------------------------------------------------------------
  // Outgoing direction

  /** The properties payload: the title as one text item and the date
      property holding the outgoing date mapping. */
  datatype Properties = Properties(title: seq<string>, dateProperty: string, date: JsonDate)

  /** `notion_properties` (lines 101-115). */
  function NotionProperties(t: Task, env: Env): (p: Properties)
    ensures p.title == [t.name]
    ensures p.dateProperty == env.dateProperty
    ensures p.date.Null? <==> t.start.None? && t.due.None?
    ensures t.start.Some? ==> p.date == Range(t.start, t.due)
    ensures t.start.None? && t.due.Some? ==> p.date == Range(t.due, None)
  {
    Dates.OutgoingIsJson(env.norm, t.start, t.due);
    Properties([t.name], env.dateProperty, DateMapping(env.norm, Pair(t.start, t.due)).value)
  }

  /** The request `to_notion` sends (lines 74-91): an update of the linked
      page when the task has a (truthy) id, a creation in the database
      otherwise. */
  datatype PushRequest =
    | UpdatePage(pageId: string, properties: Properties)
    | CreatePage(databaseId: string, properties: Properties)

  /** The part of Notion's answer the core reads. */
  datatype Response = Response(id: string, lastEdited: string)

  function PushRequestOf(t: Task, env: Env): (r: PushRequest)
    ensures r.UpdatePage? <==> Truthy(t.notionId)
    ensures r.UpdatePage? ==> Some(r.pageId) == t.notionId
    ensures r.CreatePage? ==> r.databaseId == env.databaseId
    ensures r.properties == NotionProperties(t, env)
  {
    if Truthy(t.notionId) then UpdatePage(t.notionId.value, NotionProperties(t, env))
    else CreatePage(env.databaseId, NotionProperties(t, env))
  }

  /** The effect of `to_notion` on the task once Notion has answered
      (lines 92 and 95-96): a created page's id is adopted, an existing id is
      kept, and the timestamp becomes Notion's stamp. */
  function AfterPush(t: Task, response: Response): (r: Result<Task>)
    ensures r.Success? <==> NormalizeNotionTimestamp(response.lastEdited).Success?
    ensures r.Failure? ==> r.error == TimestampFormat(response.lastEdited)
    ensures r.Success? ==>
      && r.value.timestamp == NormalizeNotionTimestamp(response.lastEdited).value
      && (Truthy(t.notionId) ==> r.value.notionId == t.notionId)
      && (!Truthy(t.notionId) ==> r.value.notionId == Some(response.id))
      && r.value.(timestamp := t.timestamp, notionId := t.notionId) == t
  {
    var linked := if Truthy(t.notionId) then t else t.(notionId := Some(response.id));
    var stamp :- NormalizeNotionTimestamp(response.lastEdited);
    Success(linked.(timestamp := stamp))
  }

  /** A pushed task is linked to a Notion page afterwards, and an id it
      already had is never cleared or replaced. */
  lemma PushLinks(t: Task, response: Response)
    ensures AfterPush(t, response).Success? ==> AfterPush(t, response).value.notionId.Some?
    ensures AfterPush(t, response).Success? && t.notionId.Some? && t.notionId.value != ""
            ==> AfterPush(t, response).value.notionId == t.notionId
  {
  }

  // ---------------------------------------------------------------------
  // Pushing and pulling back

  /** The page Notion holds after accepting `props`, as a later query returns it. */
  function PageFromProperties(id: string, props: Properties, stamp: string): Page {
    Page(id, props.title, map[props.dateProperty := props.date], stamp)
  }

  /** Absorbing the page that echoes a task's own outgoing properties gives
      the task's name back, and its dates as the round trip through Notion's
      dict form returns them. */
  lemma {:induction false} PullAfterPush(t: Task, u: Task, env: Env, id: string, stamp: string)
    requires NormalizeNotionTimestamp(stamp).Success?
    ensures var page := PageFromProperties(id, NotionProperties(t, env), stamp);
      var r := UpdateWithNotion(u, page, env);
      && (r.Success? <==> RoundTrip(env.norm, t.start, t.due).Success?)
      && (r.Success? ==> r.value.name == t.name
                         && Pair(r.value.start, r.value.due) == RoundTrip(env.norm, t.start, t.due).value)
  {
    var props := NotionProperties(t, env);
    var page := PageFromProperties(id, props, stamp);
    assert page.title == [t.name];
    assert page.dates[env.dateProperty] == props.date;
    assert props.date == DateMapping(env.norm, Pair(t.start, t.due)).value;
  }
}

=== FILE: wrappers.dfy ===
/** Optional values and failure-compatible results, plus the errors the
    synchronisation core can raise. Python's `None` becomes `None`, and an
    exception that aborts the reconciliation pass becomes a `Failure`. */
module Wrappers {

  datatype Option<+T> = None | Some(value: T)

  /** The exceptions the modelled code can raise. None of them is caught by
      the core: each one aborts the current reconciliation pass. */
  datatype Error =
    | MalformedDate(text: string)           // neither date.fromisoformat nor datetime.fromisoformat accepts the text
    | TimestampFormat(text: string)         // strptime rejects a page's last_edited_time
    | UnexpectedDateType                    // date_mapping got something that is not a tuple, dict or None
    | EmptyTitle                            // the page's title list has no first element
    | MissingDateProperty(name: string)     // the page lacks the configured date property
    | MissingAttribute(name: string)        // an attribute read on an object that does not define it
    | PushFailed(index: nat)                // the index-th push to Notion raised

  datatype Result<+T> = Success(value: T) | Failure(error: Error) {

    predicate IsFailure() {
      Failure?
    }

    function PropagateFailure<U>(): Result<U>
      requires Failure?
    {
      Failure(error)
    }

    function Extract(): T
      requires Success?
    {
      value
    }
  }

  /** Python truthiness of an optional string: `None` and `''` are false. */
  predicate Truthy(o: Option<string>) {
    o.Some? && o.value != ""
  }
}
